=== FILE: README.md ===
# Deal room: a verified model of the request handlers, the socket rooms and the client reducers

This project models the backend of a buyer/seller deal room and the two client state slices that mirror it, in Dafny.

Buyers open deals with a seller. Sellers move a deal's status. Both parties chat and exchange documents inside the deal. An admin reads counters. A socket server relays chat, typing and price events to everyone in a deal's room.

Each source file becomes one module:

- `DealModel`: the deal schema. It covers required fields, the status enum and its default, the embedded messages, and the pre-save `priceHistory` hook. It also holds the deal collection with `create`, `findById` and `save`.
- `DealController`: buyer-only creation, role-scoped listing, and the seller-owner status update.
- `EmbeddedChat`: chat stored inside the deal. Every handler checks party membership. It also covers the mark-others'-messages-read loop and the unread count.
- `StandaloneChat`: a separate message collection, sorted by `createdAt`. It has a bulk mark-read keyed on the receiver and no party check.
- `StandaloneDocuments`: a separate document collection. It has the upload checks, an access-filtered listing and the set-add grant.
- `EmbeddedDocuments`: documents stored inside the deal, with `canView` entries. Only the uploader may replace the access list or delete the document.
- `UserModel`: the user schema. It covers the `trim` and `lowercase` setters, the length rules, the role key declared twice, the password pre-save hook, and the user collection with its unique indexes.
- `UserController`: the order of `register`'s checks and its single insert, and `loginUser`'s outcomes.
- `AuthMiddleware`: `Bearer` token extraction, and `isAuthenticated`'s 401 path versus its `next` path.
- `Analytics`: the admin-gated status counts and the count of users active in the last week.
- `Realtime`: the socket handlers, as a room registry. A client event turns into a set of deliveries.
- `ChatSlice` and `DealSlice`: the client reducers, as classes whose methods update the slice state in place.

## How the model is built

Collections are classes holding a `seq` of records plus an id counter that stands in for ObjectId generation.

A deal loaded by `findById` is a `DealDocument` object. It holds the deal's value, the set of paths modified since loading, and the two non-schema properties the hook reads.

`DealCollection.Save` follows Mongoose's order:

1. Validation runs first.
2. If validation passes, the pre-save hook runs.
3. Then the record is written back.

A rejected save leaves the store unchanged.

Each handler is a method over its store. The `ensures` of each method gives, for every outcome:

- the status code;
- the new store, stated against pure functions of the old one, such as `PartyLookup`, `MarkOthersRead`, `WithGrant` and `ReplaceFirstById`.

Lemmas state the properties of those functions: idempotence, order preservation, round trips and counting identities.

External calls are parameters:

- The Cloudinary upload is the URL the store returned, `cloudUrl`.
- `jwt.verify` is `verify`.
- bcrypt's hash is `hash`, and its compare is `checkPassword`.
- `validator.isEmail` is `isEmail`.
- The clock is `now`.

Behaviour of the code worth knowing:

- `updateDeal` has no transition guard. Any enum value can be set from any status, including leaving `Completed` or `Cancelled` (`AnyStatusReachable`). A body without `status` unsets the stored status, because Mongoose's enum validator accepts an unset value. This is why `Analytics.StatusCountsCoverAllDeals` counts unset statuses too. Loading such a record applies the schema default, so listings show it as `Pending`, and the next handler that loads and saves the deal writes `Pending` back (`DealModel.Loaded`, `Analytics.ResavedUnsetDealCountsAsPending`).
- `getDeals` gives an admin the deals it sells, not every deal (`AdminSeesOnlyOwnSales`).
- `createDeal` checks none of these: seller ≠ buyer, a non-negative price, or an initial `priceHistory` entry. A new deal has an empty history.
- The pre-save hook watches the path `currentPrice`, which the schema does not have. So changing `price` records no history (`PriceChangeRecordsNoHistory`).
- The standalone chat handlers never check that the caller is a party to the deal (`GetMessagesIgnoresCaller`). A message that the caller sent to someone else is never marked read by `markRead` (`MarkReadSparesSentMessages`).
- The standalone document's uploader is not added to `accessUser`. It sees its own documents through the `uploadedBy` test in `getDocuments`. A non-party gets a filtered list, not an error.
- A successful standalone upload answers status 200.

## Model

| member | source | states |
|---|---|---|
| Common.FindFirst | frontend/src/store/slices/dealSlice.js:160 | `findIndex` (and every first-match lookup built on it): the first position whose element satisfies the predicate, None iff no element does |
| DealModel.NewDeal | backend/models/deal.model.js:3-30 | buyer, seller, title, description and price are required (empty strings refused); the record copies them, gets status `Pending`, empty arrays, and is valid |
| DealModel.HistoryAfterPreSave | backend/models/deal.model.js:87-95 | exactly one entry is appended iff `currentPrice` was modified, carrying the current price and updater; earlier entries stay as they were |
| DealModel.PriceChangeRecordsNoHistory | backend/models/deal.model.js:22-25 | a save that modified only `price` leaves `priceHistory` unchanged, since the hook watches `currentPrice` |
| DealModel.PreSaveOnlyAppends | backend/models/deal.model.js:89-92 | two recording saves append their two entries in order after the untouched old history |
| DealModel.FindDealUnique | backend/controllers/deal.controller.js:50 | with ids unique, as `DealCollection.Valid` keeps them, the lookup returns the one deal carrying the id |
| DealModel.FindDeal | backend/controllers/deal.controller.js:50 | `findById` yields the first deal with that id, and None iff no deal has it |
| DealModel.Loaded | backend/models/deal.model.js:26-30 | a loaded record always has a status: an unset one shows the default `Pending`, every other path is as stored, and validity is kept |
| DealModel.LoadAll | backend/controllers/deal.controller.js:30-32 | a `find` result holds each matched record loaded, in stored order |
| DealModel.DealDocument.Hydrate | backend/controllers/deal.controller.js:50 | the document `findById` returns holds the loaded record, with no path modified yet |
| DealModel.DealDocument.PreSave | backend/models/deal.model.js:87-95 | the hook changes only `priceHistory`, to `HistoryAfterPreSave` of the old one |
| DealModel.DealDocument.SetStatus | backend/controllers/deal.controller.js:57 | only the status changes, to the given value, and `status` becomes modified |
| DealModel.DealDocument.PushMessage | backend/controllers/chatController.js:27 | the message goes to the end of `messages`; nothing else changes |
| DealModel.DealDocument.MarkMessageRead | backend/controllers/chatController.js:80 | only that message's `isRead` becomes true |
| DealModel.DealDocument.PushDocument | backend/controllers/documentController.js:63 | the document goes to the end of `documents`; nothing else changes |
| DealModel.DealDocument.SetAccessControl | backend/controllers/documentController.js:124 | only that document's access list changes, to the given one |
| DealModel.DealDocument.RemoveDocument | backend/controllers/documentController.js:161 | exactly that document is removed; the others keep their order |
| DealModel.DealCollection.Create | backend/controllers/deal.controller.js:11-17 | the store grows by the `NewDeal` record when it validates and is unchanged otherwise; the store invariant (valid records, issued and distinct ids) is kept |
| DealModel.DealCollection.Save | backend/models/deal.model.js:84-95 | validation first; on success the hook runs and only the target deal is replaced; on failure nothing changes |
| DealController.CreateDeal | backend/controllers/deal.controller.js:3-24 | non-buyer: 403 and nothing created; invalid record: 500 and nothing created; else 201 and the new deal (buyer = caller) is appended |
| DealController.GetDeals | backend/controllers/deal.controller.js:26-40 | a buyer gets exactly the deals it buys; every other role, admin included, exactly the deals it sells; each as loaded, so every listed deal has a status |
| DealController.AdminSeesOnlyOwnSales | backend/controllers/deal.controller.js:29-33 | every deal in an admin's listing is one it sells |
| DealController.CreatedDealIsListed | backend/controllers/deal.controller.js:29-30 | after a buyer's deal is appended, the buyer's listing is the old listing plus that deal as loaded |
| DealController.UpdateDeal | backend/controllers/deal.controller.js:42-65 | role ≠ seller: 403 before any lookup; missing deal: 404; not the deal's seller: 403; a value outside the enum: 500; else only that deal's status changes |
| DealController.AnyStatusReachable | backend/controllers/deal.controller.js:57-58 | every enum value can be assigned to any valid deal, whatever its current status |
| EmbeddedChat.PartyLookup | backend/controllers/chatController.js:9-19 | 404 iff the deal is missing; 403 iff it exists and the caller is neither buyer nor seller; else the deal's position |
| EmbeddedChat.SendMessage | backend/controllers/chatController.js:6-34 | 404/403 change nothing; missing or empty content: 400, nothing saved; else 201 and one unread message from the caller is appended |
| EmbeddedChat.AppendMessageValid | backend/models/deal.model.js:54-72 | pushing a message keeps a valid deal valid iff the message has content |
| EmbeddedChat.GetMessages | backend/controllers/chatController.js:39-58 | the guards' codes, else the deal's messages in stored order |
| EmbeddedChat.MarkOthersRead | backend/controllers/chatController.js:78-82 | every message from someone else becomes read; the reader's own messages are untouched |
| EmbeddedChat.MarkOthersReadIdempotent | backend/controllers/chatController.js:78-82 | marking twice is marking once |
| EmbeddedChat.MarkOthersReadValid | backend/controllers/chatController.js:78-84 | marking keeps every message valid, so the save after the loop succeeds |
| EmbeddedChat.MarkMessagesAsRead | backend/controllers/chatController.js:63-90 | 404/403 change nothing; else the `forEach` loop leaves the deal's messages equal to `MarkOthersRead` |
| EmbeddedChat.UnreadFor | backend/controllers/chatController.js:109-111 | the count is at most the number of messages, and 0 iff every message is read or sent by the reader |
| EmbeddedChat.GetUnreadCount | backend/controllers/chatController.js:95-117 | the guards' codes, else the unread messages sent by others |
| EmbeddedChat.UnreadZeroAfterMark | backend/controllers/chatController.js:109-111 | right after the reader marks the chat read, its unread count is 0 |
| EmbeddedChat.SendCountsForOthers | backend/controllers/chatController.js:109-111 | a new unread message adds one to the other party's count and none to the sender's |
| StandaloneChat.NewMessage | backend/models/chat.model.js:3-27 | dealId, receiver and non-empty text are required; the message copies them, sender = caller, `isRead` false |
| StandaloneChat.SendMessage | backend/controllers/chat.controller.js:3-18 | invalid input: 500 and nothing created; else 201 and exactly that message is appended |
| StandaloneChat.InsertByCreatedAt | backend/controllers/chat.controller.js:24 | inserting adds exactly the one element (multiset) |
| StandaloneChat.InsertKeepsSorted | backend/controllers/chat.controller.js:24 | inserting into a sorted list keeps it sorted by `createdAt` |
| StandaloneChat.SortByCreatedAt | backend/controllers/chat.controller.js:24 | the result is a permutation of the input, sorted by non-decreasing `createdAt` |
| StandaloneChat.GetMessages | backend/controllers/chat.controller.js:20-29 | exactly the deal's messages, each with its multiplicity, oldest first |
| StandaloneChat.GetMessagesIgnoresCaller | backend/controllers/chat.controller.js:20-25 | the reply is the same for every caller |
| StandaloneChat.MarkReadFor | backend/controllers/chat.controller.js:34 | exactly the deal's messages received by the caller become read; all others are unchanged |
| StandaloneChat.MarkReadIdempotent | backend/controllers/chat.controller.js:34 | a second mark-read changes nothing |
| StandaloneChat.MarkReadSparesSentMessages | backend/controllers/chat.controller.js:34 | a message the caller sent to someone else is never marked |
| StandaloneChat.MarkRead | backend/controllers/chat.controller.js:31-39 | always 200; with a `dealId` the store becomes `MarkReadFor` of the old one, and without one nothing changes |
| StandaloneDocuments.UploadCheck | backend/controllers/document.Controller.js:8-23 | no file path: 400; no URL from storage, unparseable `allowedUsers` or missing dealId: 500; otherwise the upload proceeds |
| StandaloneDocuments.UploadDocument | backend/controllers/document.Controller.js:4-30 | a failed check creates nothing; else status 200 and one document is appended with uploader = caller and `accessUser` = the parsed list or empty |
| StandaloneDocuments.GetDocuments | backend/controllers/document.Controller.js:32-45 | exactly the deal's documents the caller uploaded or was granted, never an error |
| StandaloneDocuments.WithGrant | backend/controllers/document.Controller.js:60-63 | the user is present afterwards; the set grows by that user only; the list grows by at most one and keeps its prefix |
| StandaloneDocuments.GrantIdempotent | backend/controllers/document.Controller.js:60-63 | a repeated grant is a no-op |
| StandaloneDocuments.GrantKeepsDistinct | backend/controllers/document.Controller.js:60-63 | a list without duplicates stays without duplicates |
| StandaloneDocuments.FindDocument | backend/controllers/document.Controller.js:50 | the position of a document with that id, None iff there is none |
| StandaloneDocuments.GrantAccess | backend/controllers/document.Controller.js:47-70 | unknown document: 404; caller not uploader: 403; both change nothing; else only that document's list becomes `WithGrant` |
| StandaloneDocuments.GrantMakesVisible | backend/controllers/document.Controller.js:37-39 | after a grant the grantee's listing of that deal contains the document |
| EmbeddedDocuments.UploadDocument | backend/controllers/documentController.js:38-70 | missing deal 404, non-party 403, no file 400, in that order, changing nothing; else 201 and one entry with uploader = caller and an empty access list is appended |
| EmbeddedDocuments.GetDocuments | backend/controllers/documentController.js:75-100 | non-party: 403; else exactly the documents the caller uploaded or holds an entry with `canView` true for |
| EmbeddedDocuments.HiddenEntryGrantsNothing | backend/controllers/documentController.js:91-94 | an entry with `canView` false lets no one but the uploader see the document |
| EmbeddedDocuments.FindEmbeddedDocument | backend/controllers/documentController.js:114 | `deal.documents.id(...)` is the first entry with that id, None iff there is none |
| EmbeddedDocuments.UploaderLookup | backend/controllers/documentController.js:108-122 | 404 iff the deal or the document is missing; 403 iff both exist and the caller did not upload it; no party check |
| EmbeddedDocuments.UpdateDocumentAccess | backend/controllers/documentController.js:105-131 | guard failures change nothing; else only that document's access list is replaced, wholesale |
| EmbeddedDocuments.DeleteDocument | backend/controllers/documentController.js:136-168 | guard failures change nothing; else exactly that one document leaves `deal.documents` |
| Analytics.CountStatus | backend/controllers/analytics.controller.js:10-15 | the count is 0 iff no deal has that exact status and equals the total iff every deal has it |
| Analytics.GetDealsStatistics | backend/controllers/analytics.controller.js:4-22 | 403 iff the caller is not admin; else the four counts under the keys `pendingDeals`, `completedDeals`, `InProgress`, `Cancelled` |
| Analytics.StatusCountsCoverAllDeals | backend/controllers/analytics.controller.js:10-15 | with every status in the enum or unset, the four counts plus the unset ones sum to the number of deals |
| Analytics.ResavedUnsetDealCountsAsPending | backend/controllers/analytics.controller.js:11 | once a deal with an unset status is saved again after loading, the pending count grows by one and the unset count drops by one |
| Analytics.StatisticsSumToStoredDeals | backend/controllers/analytics.controller.js:10-17 | for any valid store the admin's four numbers plus the unset deals equal the stored deals |
| Analytics.CountActive | backend/controllers/analytics.controller.js:30-31 | at most the number of users, equal to it iff every user was updated at or after the cut-off |
| Analytics.CountActiveAntitone | backend/controllers/analytics.controller.js:30-31 | an earlier cut-off never counts fewer users |
| Analytics.GetUserEngagement | backend/controllers/analytics.controller.js:24-38 | 403 iff the caller is not admin; else the users updated within one week (604800000 ms) of now |
| Analytics.EngagementNeverGrowsWithoutUpdates | backend/controllers/analytics.controller.js:30-31 | with the users unchanged, a later call never reports more active users |
| UserModel.TrimStart | backend/models/user.model.js:10 | the result is a suffix that starts with a non-space, and only white space was dropped |
| UserModel.TrimEnd | backend/models/user.model.js:10 | the result is a prefix that ends with a non-space, and only white space was dropped |
| UserModel.Trim | backend/models/user.model.js:10 | the stored username neither starts nor ends with white space |
| UserModel.TrimIdempotent | backend/models/user.model.js:10 | trimming a trimmed username changes nothing |
| UserModel.ToLower | backend/models/user.model.js:23 | same length, letter by letter lowered, and no upper-case ASCII letter remains |
| UserModel.ToLowerIdempotent | backend/models/user.model.js:23 | lowering a lowered email changes nothing |
| UserModel.RoleFromName | backend/models/user.model.js:38-42 | a role name maps to the role it names; None iff it is not buyer, seller or admin |
| UserModel.ResolveRole | backend/models/user.model.js:32-42 | no role gives buyer; a given role is accepted iff the rule in effect lists it, and then it is stored as given |
| UserModel.SecondRoleRuleWins | backend/models/user.model.js:32-42 | the later `role` key is in effect: admin accepted, role optional, default buyer; the first key would have required a role and refused admin |
| UserModel.ToPublic | backend/controllers/user.controller.js:37 | every field but the password is copied |
| UserModel.PublicIgnoresPassword | backend/controllers/user.controller.js:60 | the user sent back does not depend on the password |
| UserModel.NewUser | backend/models/user.model.js:5-45 | accepted iff the trimmed username has 3 to 20 characters, the name is non-empty, the lowered email is a valid email, the password has at least 6 characters and the role resolves; the record holds the normalised values |
| UserModel.UserDocument.Build | backend/controllers/user.controller.js:33 | the document `create` builds holds the record, with `password` among its modified paths, which is why the hook hashes it |
| UserModel.UserDocument.PreSave | backend/models/user.model.js:47-57 | the password is replaced by its hash iff it was modified; otherwise the record is unchanged |
| UserModel.FindUser | backend/middleware/user.middleware.js:16 | `findById` yields the first user with that id, None iff there is none |
| UserModel.UserCollection.Create | backend/models/user.model.js:5-57 | a rejected record or a duplicate username or email inserts nothing; else exactly the record with its hashed password is appended; the invariant (issued, distinct ids; unique usernames and emails) is kept |
| UserController.FindAccount | backend/controllers/user.controller.js:52 | the first user matching the lowered email or the trimmed username; None iff none matches |
| UserController.RegisterCheck | backend/controllers/user.controller.js:20-31 | 400 iff a field is missing or empty or the role is not buyer, seller or admin; else 409 iff an existing user has that email or username |
| UserController.Register | backend/controllers/user.controller.js:15-42 | a failed check inserts nothing; a schema rejection gives 500 and inserts nothing; else 201, exactly one user is appended, and the reply has no password |
| UserController.NoClashAfterCheck | backend/controllers/user.controller.js:28-33 | once the duplicate check passed, the unique indexes cannot refuse the new record |
| UserController.LoginUser | backend/controllers/user.controller.js:44-65 | 400 iff no email or username, or no password; 401 iff no user matches or the password check fails; else 200 with the first matching user, the one whose password was checked, without its password |
| UserController.RegisteredUserCanLogIn | backend/controllers/user.controller.js:28-60 | after a passing duplicate check, the record `register` stores (password hashed) logs in by its email and by its username with the registered password, given only that a password passes the compare against its own hash |
| AuthMiddleware.Split | backend/middleware/user.middleware.js:8 | at least one field, and no field contains the separator |
| AuthMiddleware.JoinSplit | backend/middleware/user.middleware.js:8 | splitting loses nothing: joining the fields gives back the header |
| AuthMiddleware.SplitAround | backend/middleware/user.middleware.js:8 | a separator splits a string into the fields of each side |
| AuthMiddleware.SplitWithoutSeparator | backend/middleware/user.middleware.js:8 | a string without the separator is one field |
| AuthMiddleware.ExtractToken | backend/middleware/user.middleware.js:7-9 | no token unless the header starts with "Bearer"; a token is the non-empty second field of the split, with no space in it |
| AuthMiddleware.BareBearerYieldsNoToken | backend/middleware/user.middleware.js:7-8 | the header "Bearer" alone yields no token |
| AuthMiddleware.TokenIsSecondField | backend/middleware/user.middleware.js:7-8 | for any first word starting with "Bearer", the word after the first space is the token, whatever follows |
| AuthMiddleware.Authenticate | backend/middleware/user.middleware.js:4-21 | no token or a failed verification: 401; else `next` with the user of the decoded id, or none when no such user exists |
| AuthMiddleware.AuthRequest.IsAuthenticated | backend/middleware/user.middleware.js:4-21 | a 401 leaves `req.user` alone and does not call `next`; otherwise `req.user` is set and `next` is called exactly once |
| Realtime.RoomsAfter | backend/server.js:43-46 | `joinRoom` adds the socket to that room only; a disconnect removes it from every room; no other event changes membership |
| Realtime.ToRoom | backend/server.js:50 | every room member, and no one else, receives the event |
| Realtime.ToOthers | backend/server.js:59 | every room member except the emitter, and no one else, receives the event |
| Realtime.Deliveries | backend/server.js:40-69 | `chatPrice`, `sendMessage` and `readMessages` reach exactly every member of the room, the emitter included, with `priceUpdated(dealId, newPrice)`, `newMessage` with `isRead` false and `messagesRead`; `typing` reaches exactly the other members with `userTyping`; join, leave and disconnect deliver nothing |
| Realtime.RoomRegistry.Handle | backend/server.js:40-69 | the registry moves to `RoomsAfter` and the deliveries are those of the membership found |
| Realtime.SenderHearsOwnMessage | backend/server.js:53-56 | a socket that joined a room receives its own `newMessage`, with `isRead` false |
| Realtime.ExtraFieldsAreDropped | backend/server.js:53-56 | fields other than dealId, senderId, receiverId and content never reach anyone |
| Realtime.TypingReachesOthers | backend/server.js:58-60 | every other member gets `userTyping`; the typist does not |
| Realtime.LeaveRoomIsIgnored | backend/server.js:40-69 | with no `leaveRoom` handler, the event changes nothing and delivers nothing |
| Realtime.DisconnectedSocketHearsNothing | backend/server.js:66-68 | after a disconnect the socket receives nothing from any room |
| ChatSlice.MarkAllRead | frontend/src/store/slices/chatSlice.js:125-130 | every message, the user's own included, becomes read; nothing else changes |
| ChatSlice.MarkAllReadIdempotent | frontend/src/store/slices/chatSlice.js:125-130 | marking all read twice is marking once |
| ChatSlice.MarkAllReadLeavesNothingUnread | frontend/src/store/slices/chatSlice.js:125-130 | afterwards no message is unread, and setting one read again changes nothing |
| ChatSlice.FindMessage | frontend/src/store/slices/chatSlice.js:86 | the first message with that `_id`, None iff there is none |
| ChatSlice.ChatState.constructor | frontend/src/store/slices/chatSlice.js:71-76 | `initialState`: no messages, unreadCount 0, not loading, no error |
| ChatSlice.ChatState.AddMessage | frontend/src/store/slices/chatSlice.js:82-84 | the payload is appended; the prefix is kept |
| ChatSlice.ChatState.UpdateMessageStatus | frontend/src/store/slices/chatSlice.js:85-90 | only the first message with that `_id` gets the given flag; no match leaves the list unchanged |
| ChatSlice.ChatState.ClearError | frontend/src/store/slices/chatSlice.js:91-93 | the error becomes null and nothing else changes |
| ChatSlice.ChatState.Pending | frontend/src/store/slices/chatSlice.js:98-100 | loading becomes true and nothing else changes |
| ChatSlice.ChatState.Rejected | frontend/src/store/slices/chatSlice.js:105-108 | loading becomes false and the error becomes the payload's message |
| ChatSlice.ChatState.SendMessageFulfilled | frontend/src/store/slices/chatSlice.js:101-104 | loading false and the payload appended |
| ChatSlice.ChatState.GetMessagesFulfilled | frontend/src/store/slices/chatSlice.js:113-116 | loading false and the list replaced by the payload |
| ChatSlice.ChatState.MarkMessagesAsReadFulfilled | frontend/src/store/slices/chatSlice.js:125-130 | loading false and the `forEach` loop leaves the list equal to `MarkAllRead` |
| ChatSlice.ChatState.GetUnreadCountFulfilled | frontend/src/store/slices/chatSlice.js:139-142 | loading false and the count set from the payload |
| DealSlice.FindIndexById | frontend/src/store/slices/dealSlice.js:160 | `findIndex` gives the first deal with that `_id`, None iff there is none |
| DealSlice.ReplaceFirstById | frontend/src/store/slices/dealSlice.js:158-163 | same length; only the first deal with the payload's `_id` is replaced; no match leaves the list unchanged |
| DealSlice.ReplaceFirstByIdIdempotent | frontend/src/store/slices/dealSlice.js:160-163 | replacing with the same payload twice is replacing it once |
| DealSlice.CurrentAfter | frontend/src/store/slices/dealSlice.js:164-166 | the current deal becomes the payload iff the optional-chained ids are equal, and otherwise stays |
| DealSlice.NoCurrentDealAdoptsPayloadWithoutId | frontend/src/store/slices/dealSlice.js:164-166 | with no current deal, a payload without `_id` becomes current |
| DealSlice.DealState.constructor | frontend/src/store/slices/dealSlice.js:101-106 | `initialState`: no deals, no current deal, not loading, no error |
| DealSlice.DealState.ClearError | frontend/src/store/slices/dealSlice.js:112-114 | the error becomes null and nothing else changes |
| DealSlice.DealState.Pending | frontend/src/store/slices/dealSlice.js:119-121 | loading becomes true and nothing else changes |
| DealSlice.DealState.Rejected | frontend/src/store/slices/dealSlice.js:126-129 | loading becomes false and the error becomes the payload's message |
| DealSlice.DealState.CreateDealFulfilled | frontend/src/store/slices/dealSlice.js:122-125 | loading false and the payload appended to `deals` |
| DealSlice.DealState.GetDealsFulfilled | frontend/src/store/slices/dealSlice.js:134-137 | loading false and `deals` replaced by the payload |
| DealSlice.DealState.GetDealFulfilled | frontend/src/store/slices/dealSlice.js:146-149 | loading false and the payload becomes the current deal |
| DealSlice.DealState.UpdateDealFulfilled | frontend/src/store/slices/dealSlice.js:158-166 | the `findIndex` loop and assignment leave `deals` equal to `ReplaceFirstById`, and the current deal to `CurrentAfter`; `updateDealStatus.fulfilled` (lines 176-184) runs the same code |
| DealSlice.DealState.UploadDocumentFulfilled | frontend/src/store/slices/dealSlice.js:194-199 | loading false, `deals` untouched, and the current deal becomes `CurrentAfter` |

## Left out

- I/O and foreign calls are parameters and are not modelled: the Cloudinary upload, multer's disk storage and file filter, `fs` unlinking, `jwt.sign`, `jwt.verify`, cookies, bcrypt, `validator.isEmail`, the clock and console logging.
- Mongoose `populate` is not modelled. Neither are ObjectId string conversion and the `CastError` a malformed id would raise. Ids are naturals.
- Timestamps are abstract naturals passed in by the caller.
- Concurrency is not modelled. Handlers run one at a time, with unsynchronised read-modify-write and `save` as the code has them.
- A `req.user` that is null (a deleted user with a valid token) is not modelled: the handlers would throw on it. Controllers take a `Principal` that is always present. `AuthMiddleware.Authenticate` does return the possibly-absent user.
- The catch-all 500 and 400 replies for database failures are not modelled. Validation failures are modelled where they reach the catch.
- The deal schema declares each element of `documents` as an ObjectId with extra options. The model gives `deal.documents` the shape the embedded document handlers write, not that declaration.
- Module loading (`require` of a default-exported ES module in two controllers) is not part of this model. Neither are the route wiring, the unmounted chat and document routers, the socket server that is never bound to a port, and CORS.
- The standalone document schema is not checked beyond its required URL and dealId. `allowedUsers` is given as already parsed: absent or empty, a list of ids, or unparseable.
- UserModel.ToLower: lowers ASCII letters only; JavaScript's `toLowerCase` also lowers non-ASCII letters.
- UserModel.NewUser: string lengths count Dafny characters, whereas Mongoose counts UTF-16 code units, so strings outside the Basic Multilingual Plane are measured differently.
- UserController.Register: the duplicate check assumes Mongoose applies the `trim` and `lowercase` setters to query values, so the query compares normalised values. The JWT token and cookie in the reply are not modelled.
- StandaloneChat.MarkRead: a body without `dealId` is taken to query `dealId: null` (the driver's encoding of undefined), which matches no stored message because the field is required; a driver set to drop undefined keys would instead mark every message the caller received.
- UserController.LoginUser: a body field that is absent matches no stored user in the `$or` query, since stored users always have both fields.
- StandaloneChat.SortByCreatedAt: proved sorted and a permutation; the stability of `Array.prototype.sort` on equal timestamps is not stated.
- EmbeddedDocuments.UploadDocument, EmbeddedDocuments.GetDocuments, EmbeddedDocuments.UpdateDocumentAccess, EmbeddedDocuments.DeleteDocument: these model the handlers' evident intent on embedded documents. As written they cannot succeed. The file requires `../models/dealModel`, which is not the deal model's file name, so the module does not load. Even with that path corrected, the schema declares each `documents` element as an ObjectId: the pushed object cannot be cast, and `deal.documents.id(...)` does not exist on such an array, so the upload, access-update and delete success paths would end in the catch with 400. The 201 and 200 replies proved here are not reachable behaviour of the code as written.
- Prices (`Deal.price`, the price history entries, the socket's `newPrice`) are Dafny reals. JavaScript numbers also include NaN, the infinities and double rounding, and those are not modelled. Nothing in the core computes with a price.
- Realtime.Deliveries: payload fields a client leaves out are not modelled; each event carries all the fields its handler reads. The room socket.io creates for each socket's own id is not modelled.
- ChatSlice.ChatState.Rejected: a rejection without a payload would make the reducer throw; the model takes the payload's message, possibly absent.
- DealSlice.DealState.Rejected: same as above.
- The thunks, `axios` calls and the shape of server responses are not modelled. Payloads are taken to be the messages and deals the reducers store.

=== FILE: analytics.dfy ===
/** The admin dashboards (backend/controllers/analytics.controller.js):
    the per-status deal counts and the count of users active in the last
    week. Both are read-only and admin-gated. */
module Analytics {
  import opened Common
  import opened DealModel
  import opened UserModel

  /** The `data` object of `getDealsStatistics`, keyed as the reply keys it. */
  datatype DealStatistics = DealStatistics(
    pendingDeals: nat, completedDeals: nat, InProgress: nat, Cancelled: nat)

  /** `countDocuments({status: s})`: the deals whose status is exactly `s`. */
  function CountStatus(deals: seq<Deal>, s: string): (n: nat)
    ensures n <= |deals|
    ensures n == 0 <==> forall k :: 0 <= k < |deals| ==> deals[k].status != Some(s)
    ensures n == |deals| <==> forall k :: 0 <= k < |deals| ==> deals[k].status == Some(s)
  {
    if deals == [] then 0
    else (if deals[0].status == Some(s) then 1 else 0) + CountStatus(deals[1..], s)
  }

  /** The deals whose status was unset by an update without a status. */
  function CountUnset(deals: seq<Deal>): (n: nat)
    ensures n <= |deals|
  {
    if deals == [] then 0
    else (if deals[0].status.None? then 1 else 0) + CountUnset(deals[1..])
  }

  /** `getDealsStatistics`: 403 for anyone but an admin, else the four counts. */
  function GetDealsStatistics(caller: Principal, deals: seq<Deal>): (r: Reply<DealStatistics>)
    ensures r.Fail? <==> caller.role != Admin
    ensures r.Fail? ==> r.code == CodeForbidden
    ensures r.Done? ==>
      && r.code == CodeOk
      && r.value.pendingDeals == CountStatus(deals, "Pending")
      && r.value.completedDeals == CountStatus(deals, "Completed")
      && r.value.InProgress == CountStatus(deals, "In Progress")
      && r.value.Cancelled == CountStatus(deals, "Cancelled")
  {
    if caller.role != Admin then Fail(CodeForbidden)
    else Done(CodeOk, DealStatistics(
      CountStatus(deals, "Pending"), CountStatus(deals, "Completed"),
      CountStatus(deals, "In Progress"), CountStatus(deals, "Cancelled")))
  }

  /** Every stored status is one of the four enum values or unset, so the
      four counts and the unset ones add up to the number of deals. */
  lemma {:induction false} StatusCountsCoverAllDeals(deals: seq<Deal>)
    requires forall k :: 0 <= k < |deals| ==> StatusAllowed(deals[k].status)
    ensures CountStatus(deals, "Pending") + CountStatus(deals, "Completed")
            + CountStatus(deals, "In Progress") + CountStatus(deals, "Cancelled")
            + CountUnset(deals) == |deals|
  {
    if deals != [] {
      StatusCountsCoverAllDeals(deals[1..]);
    }
  }

  /** A deal whose status was unset comes back with the default the next
      time a handler loads it, and that handler's save writes it: from then
      on the deal is counted as pending and no longer as unset. */
  lemma {:induction false} ResavedUnsetDealCountsAsPending(deals: seq<Deal>, k: nat, saved: Deal)
    requires k < |deals| && deals[k].status.None?
    requires saved.status == Loaded(deals[k]).status
    ensures CountStatus(deals[k := saved], "Pending") == CountStatus(deals, "Pending") + 1
    ensures CountUnset(deals[k := saved]) + 1 == CountUnset(deals)
  {
    if k == 0 {
      assert deals[k := saved][1..] == deals[1..];
    } else {
      ResavedUnsetDealCountsAsPending(deals[1..], k - 1, saved);
      assert deals[k := saved][1..] == deals[1..][k - 1 := saved];
    }
  }

  /** The statistics an admin sees add up to the stored deals that have a
      status. */
  lemma StatisticsSumToStoredDeals(store: DealCollection, admin: Principal)
    requires store.Valid() && admin.role == Admin
    ensures var s := GetDealsStatistics(admin, store.deals).value;
      s.pendingDeals + s.completedDeals + s.InProgress + s.Cancelled + CountUnset(store.deals) == |store.deals|
  {
    StatusCountsCoverAllDeals(store.deals);
  }

  /** `7 * 24 * 60 * 60 * 1000`: one week in milliseconds. */
  const WeekMillis: int := 604800000

  /** `countDocuments({updatedAt: {$gte: since}})`. */
  function CountActive(users: seq<User>, since: int): (n: nat)
    ensures n <= |users|
    ensures n == |users| <==> forall k :: 0 <= k < |users| ==> users[k].updatedAt >= since
  {
    if users == [] then 0
    else (if users[0].updatedAt >= since then 1 else 0) + CountActive(users[1..], since)
  }

  /** An earlier cut-off never counts fewer users. */
  lemma {:induction false} CountActiveAntitone(users: seq<User>, early: int, late: int)
    requires early <= late
    ensures CountActive(users, late) <= CountActive(users, early)
  {
    if users != [] {
      CountActiveAntitone(users[1..], early, late);
    }
  }

  /** `getUserEngagement` at time `now` (milliseconds): 403 for anyone but
      an admin, else the users updated within the last week. */
  function GetUserEngagement(caller: Principal, users: seq<User>, now: int): (r: Reply<nat>)
    ensures r.Fail? <==> caller.role != Admin
    ensures r.Fail? ==> r.code == CodeForbidden
    ensures r.Done? ==> r.code == CodeOk && r.value == CountActive(users, now - WeekMillis) && r.value <= |users|
  {
    if caller.role != Admin then Fail(CodeForbidden)
    else Done(CodeOk, CountActive(users, now - WeekMillis))
  }

  /** Asking later never counts a user who was not active at the earlier ask. */
  lemma EngagementNeverGrowsWithoutUpdates(admin: Principal, users: seq<User>, t1: int, t2: int)
    requires admin.role == Admin && t1 <= t2
    ensures GetUserEngagement(admin, users, t2).value <= GetUserEngagement(admin, users, t1).value
  {
    CountActiveAntitone(users, t1 - WeekMillis, t2 - WeekMillis);
  }
}

=== FILE: auth_middleware.dfy ===
/** The `isAuthenticated` middleware (backend/middleware/user.middleware.js):
    the bearer token is the second space-separated field of an
    authorization header that starts with "Bearer"; a missing token or a
    failed verification answers 401, otherwise `req.user` is set to the
    looked-up user (possibly none) and `next` runs. `jwt.verify` is the
    parameter `verify`. */
module AuthMiddleware {
  import opened Common
  import opened UserModel

  /** `String.prototype.split` with a one-character separator. */
  function Split(s: string, sep: char): (r: seq<string>)
    ensures |r| >= 1
    ensures forall k :: 0 <= k < |r| ==> sep !in r[k]
  {
    if s == [] then [""]
    else
      var rest := Split(s[1..], sep);
      if s[0] == sep then [""] + rest
      else [[s[0]] + rest[0]] + rest[1..]
  }

  /** `Array.prototype.join` with a one-character separator. */
  function Join(parts: seq<string>, sep: char): (r: string)
    requires |parts| >= 1
    ensures |r| >= |parts| - 1
  {
    if |parts| == 1 then parts[0] else parts[0] + [sep] + Join(parts[1..], sep)
  }

  /** Splitting loses nothing: joining the fields back gives the header. */
  lemma {:induction false} JoinSplit(s: string, sep: char)
    ensures Join(Split(s, sep), sep) == s
  {
    if s != [] {
      var rest := Split(s[1..], sep);
      JoinSplit(s[1..], sep);
      if s[0] == sep {
        assert Join([""] + rest, sep) == "" + [sep] + Join(rest, sep);
      } else {
        var r := [[s[0]] + rest[0]] + rest[1..];
        if |rest| == 1 {
          assert Join(r, sep) == [s[0]] + rest[0];
        } else {
          assert r[1..] == rest[1..];
          assert Join(r, sep) == [s[0]] + rest[0] + [sep] + Join(rest[1..], sep);
        }
      }
    }
  }

  /** A separator splits the string into the fields of each side. */
  lemma {:induction false} SplitAround(a: string, b: string, sep: char)
    ensures Split(a + [sep] + b, sep) == Split(a, sep) + Split(b, sep)
  {
    if a == [] {
      assert a + [sep] + b == [sep] + b;
      assert ([sep] + b)[1..] == b;
    } else {
      assert (a + [sep] + b)[1..] == a[1..] + [sep] + b;
      SplitAround(a[1..], b, sep);
    }
  }

  /** A string without the separator is a single field. */
  lemma {:induction false} SplitWithoutSeparator(s: string, sep: char)
    requires sep !in s
    ensures Split(s, sep) == [s]
  {
    if s != [] {
      SplitWithoutSeparator(s[1..], sep);
      assert [s[0]] + s[1..] == s;
    }
  }

  predicate StartsWith(s: string, prefix: string)
  {
    |prefix| <= |s| && s[..|prefix|] == prefix
  }

  const BearerPrefix: string := "Bearer"

  /** The token the middleware reads from the header, or None when `token`
      stays falsy. */
  function ExtractToken(header: Option<string>): (r: Option<string>)
    ensures header.None? || !StartsWith(header.value, BearerPrefix) ==> r.None?
    ensures r.Some? ==>
      && |Split(header.value, ' ')| > 1 && r.value == Split(header.value, ' ')[1]
      && r.value != "" && ' ' !in r.value
  {
    if header.Some? && header.value != "" && StartsWith(header.value, BearerPrefix) then
      var parts := Split(header.value, ' ');
      if |parts| > 1 && parts[1] != "" then Some(parts[1]) else None
    else None
  }

  /** A bare "Bearer" has no second field, so there is no token. */
  lemma BareBearerYieldsNoToken()
    ensures ExtractToken(Some(BearerPrefix)) == None
  {
    SplitWithoutSeparator(BearerPrefix, ' ');
  }

  /** The token is the word after the first space, whatever follows it and
      whatever letters follow "Bearer" before that space. */
  lemma TokenIsSecondField(scheme: string, token: string, more: Option<string>)
    requires StartsWith(scheme, BearerPrefix) && ' ' !in scheme
    requires token != "" && ' ' !in token
    ensures var header := scheme + " " + token + (if more.Some? then " " + more.value else "");
      ExtractToken(Some(header)) == Some(token)
  {
    var header := scheme + " " + token + (if more.Some? then " " + more.value else "");
    SplitWithoutSeparator(scheme, ' ');
    SplitWithoutSeparator(token, ' ');
    assert StartsWith(header, BearerPrefix) by {
      assert header[..|BearerPrefix|] == scheme[..|BearerPrefix|];
    }
    if more.Some? {
      assert header == scheme + [' '] + (token + [' '] + more.value);
      SplitAround(scheme, token + [' '] + more.value, ' ');
      SplitAround(token, more.value, ' ');
    } else {
      assert header == scheme + [' '] + token;
      SplitAround(scheme, token, ' ');
    }
  }

  /** How the middleware ends: a 401, or `next` with `req.user` set. */
  datatype AuthOutcome = Rejected(code: nat) | Passed(user: Option<PublicUser>)

  /** `isAuthenticated`, with `verify` returning the decoded id or None
      when `jwt.verify` throws, and `users` the collection `findById` reads. */
  function Authenticate(header: Option<string>, verify: string -> Option<Id>, users: seq<User>): (r: AuthOutcome)
    ensures ExtractToken(header).None? ==> r == Rejected(CodeUnauthorized)
    ensures ExtractToken(header).Some? && verify(ExtractToken(header).value).None? ==> r == Rejected(CodeUnauthorized)
    ensures r.Rejected? ==> r.code == CodeUnauthorized
    ensures r.Passed? ==>
      && ExtractToken(header).Some? && verify(ExtractToken(header).value).Some?
      && (r.user.None? <==> forall k :: 0 <= k < |users| ==> users[k].id != verify(ExtractToken(header).value).value)
      && (r.user.Some? ==> r.user.value.id == verify(ExtractToken(header).value).value
                           && exists k :: 0 <= k < |users| && r.user.value == ToPublic(users[k]))
  {
    match ExtractToken(header)
    case None => Rejected(CodeUnauthorized)
    case Some(token) =>
      match verify(token)
      case None => Rejected(CodeUnauthorized)
      case Some(id) =>
        match FindUser(users, id)
        case None => Passed(None)
        case Some(k) => Passed(Some(ToPublic(users[k])))
  }

  /** The request and response as the middleware touches them. */
  class AuthRequest {
    var user: Option<PublicUser>
    var status: Option<nat>
    var nextCalls: nat

    constructor ()
      ensures user == None && status == None && nextCalls == 0
    {
      user := None;
      status := None;
      nextCalls := 0;
    }

    /** Run the middleware once: either a 401 is sent and `next` is not
        called, or `req.user` is assigned and `next` is called once. */
    method IsAuthenticated(header: Option<string>, verify: string -> Option<Id>, users: seq<User>)
      modifies this
      ensures Authenticate(header, verify, users).Rejected? ==>
        status == Some(CodeUnauthorized) && nextCalls == old(nextCalls) && user == old(user)
      ensures Authenticate(header, verify, users).Passed? ==>
        && user == Authenticate(header, verify, users).user
        && nextCalls == old(nextCalls) + 1 && status == old(status)
    {
      var token := ExtractToken(header);
      if token.None? {
        status := Some(CodeUnauthorized);
        return;
      }
      var decoded := verify(token.value);
      if decoded.None? {
        status := Some(CodeUnauthorized);
        return;
      }
      var found := FindUser(users, decoded.value);
      user := if found.Some? then Some(ToPublic(users[found.value])) else None;
      nextCalls := nextCalls + 1;
    }
  }
}

=== FILE: chat_embedded.dfy ===
/** The chat handlers that keep messages inside the deal record
    (backend/controllers/chatController.js). Every handler loads the deal
    (404 when absent) and admits only its buyer or seller (403). */
module EmbeddedChat {
  import opened Common
  import opened DealModel

  predicate IsParty(d: Deal, user: Id)
  {
    d.buyer == user || d.seller == user
  }

  /** The lookup and party check every handler opens with: the position of
      the deal when the caller may use it. */
  function PartyLookup(deals: seq<Deal>, dealId: Id, caller: Principal): (r: Reply<nat>)
    ensures r == Fail(CodeNotFound) <==> FindDeal(deals, dealId).None?
    ensures r == Fail(CodeForbidden) <==>
      FindDeal(deals, dealId).Some? && !IsParty(deals[FindDeal(deals, dealId).value], caller.id)
    ensures r.Done? ==>
      r.value < |deals| && deals[r.value].id == dealId && IsParty(deals[r.value], caller.id)
      && Some(r.value) == FindDeal(deals, dealId)
  {
    match FindDeal(deals, dealId)
    case None => Fail(CodeNotFound)
    case Some(k) => if IsParty(deals[k], caller.id) then Done(CodeOk, k) else Fail(CodeForbidden)
  }

  /** `sendMessage`: push one unread message from the caller and save; a
      missing or empty content fails validation, caught as 400. The reply
      here is the stored message; the handler itself answers with the plain
      object it pushed, which carries only `sender`, `content` and
      `isRead`, the three fields this contract fixes. */
  method SendMessage(store: DealCollection, caller: Principal, dealId: Id,
                     content: Option<string>, now: nat)
    returns (reply: Reply<EmbeddedMessage>)
    requires store.Valid()
    modifies store
    ensures store.Valid()
    ensures PartyLookup(old(store.deals), dealId, caller).Fail? ==>
      reply.code == PartyLookup(old(store.deals), dealId, caller).code
      && store.deals == old(store.deals)
    ensures PartyLookup(old(store.deals), dealId, caller).Done? && !RequiredString(content) ==>
      reply == Fail(CodeBadRequest) && store.deals == old(store.deals)
    ensures PartyLookup(old(store.deals), dealId, caller).Done? && RequiredString(content) ==>
      var k := PartyLookup(old(store.deals), dealId, caller).value;
      var d := Loaded(old(store.deals)[k]);
      && reply.Done? && reply.code == CodeCreated
      && reply.value.sender == caller.id && reply.value.content == content && !reply.value.isRead
      && store.deals == old(store.deals)[k := d.(messages := d.messages + [reply.value])]
  {
    var access := PartyLookup(store.deals, dealId, caller);
    if access.Fail? {
      return Fail(access.code);
    }
    var k := access.value;
    var doc := new DealDocument.Hydrate(store.deals[k]);
    var id := store.FreshId();
    var message := EmbeddedMessage(id, caller.id, content, false, now);
    AppendMessageValid(doc.value, message);
    doc.PushMessage(message);
    var saved := store.Save(k, doc);
    if !saved {
      assert !MessageValid(message);
      return Fail(CodeBadRequest);
    }
    reply := Done(CodeCreated, message);
  }

  /** A valid deal stays valid after a push exactly when the new message is valid. */
  lemma AppendMessageValid(d: Deal, m: EmbeddedMessage)
    requires DealValid(d)
    ensures DealValid(d.(messages := d.messages + [m])) <==> MessageValid(m)
  {
    var msgs := d.messages + [m];
    assert msgs[|d.messages|] == m;
  }

  /** `getMessages`: the deal's messages in stored order. */
  function GetMessages(deals: seq<Deal>, caller: Principal, dealId: Id): (r: Reply<seq<EmbeddedMessage>>)
    ensures r.Fail? <==> PartyLookup(deals, dealId, caller).Fail?
    ensures r.Fail? ==> r.code == PartyLookup(deals, dealId, caller).code
    ensures r.Done? ==>
      r.code == CodeOk && r.value == deals[PartyLookup(deals, dealId, caller).value].messages
  {
    match PartyLookup(deals, dealId, caller)
    case Fail(code) => Fail(code)
    case Done(_, k) => Done(CodeOk, deals[k].messages)
  }

  /** A message after `markMessagesAsRead` by `reader`. */
  function MarkIfOthers(m: EmbeddedMessage, reader: Id): EmbeddedMessage
  {
    if m.sender != reader then m.(isRead := true) else m
  }

  /** The messages `markMessagesAsRead` leaves: every message someone else
      sent is read, the reader's own messages are as they were. */
  function MarkOthersRead(msgs: seq<EmbeddedMessage>, reader: Id): (r: seq<EmbeddedMessage>)
    ensures |r| == |msgs|
    ensures forall k :: 0 <= k < |msgs| && msgs[k].sender != reader ==>
      r[k] == msgs[k].(isRead := true)
    ensures forall k :: 0 <= k < |msgs| && msgs[k].sender == reader ==> r[k] == msgs[k]
  {
    if msgs == [] then [] else [MarkIfOthers(msgs[0], reader)] + MarkOthersRead(msgs[1..], reader)
  }

  lemma MarkOthersReadIdempotent(msgs: seq<EmbeddedMessage>, reader: Id)
    ensures MarkOthersRead(MarkOthersRead(msgs, reader), reader) == MarkOthersRead(msgs, reader)
  {
    var once := MarkOthersRead(msgs, reader);
    var twice := MarkOthersRead(once, reader);
    assert forall k :: 0 <= k < |msgs| ==> twice[k] == once[k];
  }

  /** Marking read keeps every message valid. */
  lemma MarkOthersReadValid(msgs: seq<EmbeddedMessage>, reader: Id)
    requires forall k :: 0 <= k < |msgs| ==> MessageValid(msgs[k])
    ensures forall k :: 0 <= k < |msgs| ==> MessageValid(MarkOthersRead(msgs, reader)[k])
  {
  }

  /** `markMessagesAsRead`: the `forEach` loop over the deal's messages. */
  method MarkMessagesAsRead(store: DealCollection, caller: Principal, dealId: Id)
    returns (reply: Reply<()>)
    requires store.Valid()
    modifies store
    ensures store.Valid()
    ensures PartyLookup(old(store.deals), dealId, caller).Fail? ==>
      reply.code == PartyLookup(old(store.deals), dealId, caller).code
      && store.deals == old(store.deals)
    ensures PartyLookup(old(store.deals), dealId, caller).Done? ==>
      var k := PartyLookup(old(store.deals), dealId, caller).value;
      var d := Loaded(old(store.deals)[k]);
      reply == Done(CodeOk, ())
      && store.deals == old(store.deals)[k := d.(messages := MarkOthersRead(d.messages, caller.id))]
  {
    var access := PartyLookup(store.deals, dealId, caller);
    if access.Fail? {
      return Fail(access.code);
    }
    var k := access.value;
    ghost var d := Loaded(store.deals[k]);
    var doc := new DealDocument.Hydrate(store.deals[k]);
    var i := 0;
    while i < |doc.value.messages|
      modifies doc
      invariant 0 <= i <= |doc.value.messages| == |d.messages|
      invariant doc.value == d.(messages := doc.value.messages)
      invariant "currentPrice" !in doc.modified
      invariant forall j :: 0 <= j < i ==> doc.value.messages[j] == MarkIfOthers(d.messages[j], caller.id)
      invariant forall j :: i <= j < |d.messages| ==> doc.value.messages[j] == d.messages[j]
    {
      if doc.value.messages[i].sender != caller.id {
        doc.MarkMessageRead(i);
      }
      i := i + 1;
    }
    assert doc.value.messages == MarkOthersRead(d.messages, caller.id);
    MarkOthersReadValid(d.messages, caller.id);
    var saved := store.Save(k, doc);
    assert saved;
    reply := Done(CodeOk, ());
  }

  /** Messages the reader has not read and did not send. */
  function UnreadFor(msgs: seq<EmbeddedMessage>, reader: Id): (n: nat)
    ensures n <= |msgs|
    ensures n == 0 <==> forall k :: 0 <= k < |msgs| ==> msgs[k].isRead || msgs[k].sender == reader
  {
    if msgs == [] then 0
    else (if !msgs[0].isRead && msgs[0].sender != reader then 1 else 0) + UnreadFor(msgs[1..], reader)
  }

  /** `getUnreadCount`. */
  function GetUnreadCount(deals: seq<Deal>, caller: Principal, dealId: Id): (r: Reply<nat>)
    ensures r.Fail? <==> PartyLookup(deals, dealId, caller).Fail?
    ensures r.Fail? ==> r.code == PartyLookup(deals, dealId, caller).code
    ensures r.Done? ==>
      r.code == CodeOk && r.value == UnreadFor(deals[PartyLookup(deals, dealId, caller).value].messages, caller.id)
  {
    match PartyLookup(deals, dealId, caller)
    case Fail(code) => Fail(code)
    case Done(_, k) => Done(CodeOk, UnreadFor(deals[k].messages, caller.id))
  }

  /** Right after a party marks the chat read, its unread count is zero. */
  lemma UnreadZeroAfterMark(msgs: seq<EmbeddedMessage>, reader: Id)
    ensures UnreadFor(MarkOthersRead(msgs, reader), reader) == 0
  {
    var r := MarkOthersRead(msgs, reader);
    assert forall k :: 0 <= k < |r| ==> r[k].isRead || r[k].sender == reader;
  }

  /** Sending adds one to the other party's unread count and none to the sender's. */
  lemma {:induction false} SendCountsForOthers(msgs: seq<EmbeddedMessage>, m: EmbeddedMessage, reader: Id)
    requires !m.isRead
    ensures UnreadFor(msgs + [m], reader) == UnreadFor(msgs, reader) + (if m.sender != reader then 1 else 0)
  {
    if msgs == [] {
      assert msgs + [m] == [m];
      assert [m][1..] == [];
    } else {
      assert (msgs + [m])[1..] == msgs[1..] + [m];
      SendCountsForOthers(msgs[1..], m, reader);
    }
  }
}

=== FILE: chat_slice.dfy ===
/** The client chat state (frontend/src/store/slices/chatSlice.js): the
    synchronous reducers and the pending/fulfilled/rejected cases of the
    four request thunks, as methods on the slice state. */
module ChatSlice {
  import opened Common

  /** A message as the client holds it: its `_id` (possibly absent), its
      read flag, and whatever other fields the server sent. */
  datatype ClientMessage = ClientMessage(id: Option<string>, isRead: bool, fields: map<string, string>)

  /** The messages after the `markMessagesAsRead.fulfilled` loop: all read. */
  function MarkAllRead(msgs: seq<ClientMessage>): (r: seq<ClientMessage>)
    ensures |r| == |msgs|
    ensures forall k :: 0 <= k < |msgs| ==> r[k] == msgs[k].(isRead := true)
  {
    if msgs == [] then [] else [msgs[0].(isRead := true)] + MarkAllRead(msgs[1..])
  }

  lemma MarkAllReadIdempotent(msgs: seq<ClientMessage>)
    ensures MarkAllRead(MarkAllRead(msgs)) == MarkAllRead(msgs)
  {
    var once := MarkAllRead(msgs);
    assert forall k :: 0 <= k < |msgs| ==> MarkAllRead(once)[k] == once[k];
  }

  /** `Array.prototype.find` on `_id`, as a position: the first match. */
  function FindMessage(msgs: seq<ClientMessage>, id: Option<string>): (r: Option<nat>)
    ensures r.Some? ==> r.value < |msgs| && msgs[r.value].id == id
    ensures r.Some? ==> forall k :: 0 <= k < r.value ==> msgs[k].id != id
    ensures r.None? <==> forall k :: 0 <= k < |msgs| ==> msgs[k].id != id
  {
    FindFirst(msgs, (m: ClientMessage) => m.id == id)
  }

  /** The slice state. */
  class ChatState {
    var messages: seq<ClientMessage>
    var unreadCount: int
    var loading: bool
    var error: Option<string>

    /** `initialState`. */
    constructor ()
      ensures messages == [] && unreadCount == 0 && !loading && error == None
    {
      messages := [];
      unreadCount := 0;
      loading := false;
      error := None;
    }

    /** `addMessage`: push the payload. */
    method AddMessage(m: ClientMessage)
      modifies this`messages
      ensures messages == old(messages) + [m]
    {
      messages := messages + [m];
    }

    /** `updateMessageStatus`: set the read flag of the first message whose
        `_id` equals `messageId`; with no match nothing changes. */
    method UpdateMessageStatus(messageId: Option<string>, isRead: bool)
      modifies this`messages
      ensures FindMessage(old(messages), messageId).None? ==> messages == old(messages)
      ensures FindMessage(old(messages), messageId).Some? ==>
        var k := FindMessage(old(messages), messageId).value;
        messages == old(messages)[k := old(messages)[k].(isRead := isRead)]
    {
      var i := 0;
      while i < |messages| && messages[i].id != messageId
        invariant 0 <= i <= |messages|
        invariant forall k :: 0 <= k < i ==> messages[k].id != messageId
      {
        i := i + 1;
      }
      if i < |messages| {
        messages := messages[i := messages[i].(isRead := isRead)];
      }
    }

    /** `clearError`. */
    method ClearError()
      modifies this`error
      ensures error == None
    {
      error := None;
    }

    /** The `pending` case of every thunk. */
    method Pending()
      modifies this`loading
      ensures loading
    {
      loading := true;
    }

    /** The `rejected` case of every thunk: the payload's `message`. */
    method Rejected(payloadMessage: Option<string>)
      modifies this`loading, this`error
      ensures !loading && error == payloadMessage
    {
      loading := false;
      error := payloadMessage;
    }

    /** `sendMessage.fulfilled`: push the payload. */
    method SendMessageFulfilled(m: ClientMessage)
      modifies this`loading, this`messages
      ensures !loading && messages == old(messages) + [m]
    {
      loading := false;
      messages := messages + [m];
    }

    /** `getMessages.fulfilled`: the payload replaces the list. */
    method GetMessagesFulfilled(payload: seq<ClientMessage>)
      modifies this`loading, this`messages
      ensures !loading && messages == payload
    {
      loading := false;
      messages := payload;
    }

    /** `markMessagesAsRead.fulfilled`: the `forEach` that marks every
        message read, the user's own included. */
    method MarkMessagesAsReadFulfilled()
      modifies this`loading, this`messages
      ensures !loading && messages == MarkAllRead(old(messages))
    {
      loading := false;
      var i := 0;
      while i < |messages|
        invariant !loading
        invariant 0 <= i <= |messages| == |old(messages)|
        invariant forall k :: 0 <= k < i ==> messages[k] == old(messages)[k].(isRead := true)
        invariant forall k :: i <= k < |messages| ==> messages[k] == old(messages)[k]
      {
        messages := messages[i := messages[i].(isRead := true)];
        i := i + 1;
      }
    }

    /** `getUnreadCount.fulfilled`: the count the server sent. */
    method GetUnreadCountFulfilled(count: int)
      modifies this`loading, this`unreadCount
      ensures !loading && unreadCount == count
    {
      loading := false;
      unreadCount := count;
    }
  }

  /** After the mark-all-read case no message is unread, and a status
      update of a message by `_id` then finds it already read when the
      update sets the flag to true. */
  lemma MarkAllReadLeavesNothingUnread(msgs: seq<ClientMessage>, id: Option<string>)
    ensures forall k :: 0 <= k < |msgs| ==> MarkAllRead(msgs)[k].isRead
    ensures FindMessage(MarkAllRead(msgs), id).Some? ==>
      var r := MarkAllRead(msgs);
      var k := FindMessage(r, id).value;
      r[k := r[k].(isRead := true)] == r
  {
  }
}

=== FILE: chat_standalone.dfy ===
/** The chat handlers over a message collection of their own
    (backend/controllers/chat.controller.js, backend/models/chat.model.js).
    None of them checks that the caller is a party to the deal. */
module StandaloneChat {
  import opened Common

  /** A stored message; `createdAt` is the timestamp Mongoose adds. */
  datatype ChatMessage = ChatMessage(
    id: Id, dealId: Id, sender: Id, receiver: Id, message: string, isRead: bool, createdAt: nat)

  /** The `message` collection in insertion order. */
  class MessageCollection {
    var messages: seq<ChatMessage>
    var nextId: Id

    /** Every stored message passed validation (the required `message`
        string is non-empty) and has an id already issued; no two messages
        share an `_id`. */
    ghost predicate Valid()
      reads this
    {
      && (forall k :: 0 <= k < |messages| ==> messages[k].message != "" && messages[k].id < nextId)
      && (forall i, j :: 0 <= i < j < |messages| ==> messages[i].id != messages[j].id)
    }

    constructor ()
      ensures Valid() && messages == [] && nextId == 0
    {
      messages := [];
      nextId := 0;
    }
  }

  /** `messageModel.create(...)` from the request: dealId, receiver and a
      non-empty message are required, `isRead` defaults to false. */
  function NewMessage(id: Id, sender: Id, dealId: Option<Id>, receiverId: Option<Id>,
                      message: Option<string>, now: nat): (r: Option<ChatMessage>)
    ensures r.Some? <==> dealId.Some? && receiverId.Some? && message.Some? && message.value != ""
    ensures r.Some? ==>
      && r.value.id == id && r.value.dealId == dealId.value && r.value.sender == sender
      && r.value.receiver == receiverId.value && r.value.message == message.value
      && !r.value.isRead && r.value.createdAt == now
  {
    if dealId.None? || receiverId.None? || message.None? || message.value == "" then None
    else Some(ChatMessage(id, dealId.value, sender, receiverId.value, message.value, false, now))
  }

  /** `sendMessage`: create one message from the caller; a validation
      failure lands in the catch-all 500 and creates nothing. */
  method SendMessage(store: MessageCollection, caller: Principal, dealId: Option<Id>,
                     receiverId: Option<Id>, message: Option<string>, now: nat)
    returns (reply: Reply<ChatMessage>)
    requires store.Valid()
    modifies store
    ensures store.Valid()
    ensures match NewMessage(old(store.nextId), caller.id, dealId, receiverId, message, now)
      case None => reply == Fail(CodeServerError) && store.messages == old(store.messages)
      case Some(m) => reply == Done(CodeCreated, m) && store.messages == old(store.messages) + [m]
  {
    var created := NewMessage(store.nextId, caller.id, dealId, receiverId, message, now);
    if created.None? {
      return Fail(CodeServerError);
    }
    store.messages := store.messages + [created.value];
    store.nextId := store.nextId + 1;
    reply := Done(CodeCreated, created.value);
  }

  predicate SortedByCreatedAt(s: seq<ChatMessage>)
  {
    forall i, j :: 0 <= i < j < |s| ==> s[i].createdAt <= s[j].createdAt
  }

  /** Insert `m` after every element that is not later than it, which is
      where a stable sort on `createdAt` puts it. */
  function InsertByCreatedAt(m: ChatMessage, s: seq<ChatMessage>): (r: seq<ChatMessage>)
    ensures |r| == |s| + 1
    ensures multiset(r) == multiset(s) + multiset{m}
  {
    if s == [] then [m]
    else if m.createdAt < s[0].createdAt then [m] + s
    else
      assert s == [s[0]] + s[1..];
      [s[0]] + InsertByCreatedAt(m, s[1..])
  }

  lemma {:induction false} InsertKeepsSorted(m: ChatMessage, s: seq<ChatMessage>)
    requires SortedByCreatedAt(s)
    ensures SortedByCreatedAt(InsertByCreatedAt(m, s))
  {
    if s != [] && m.createdAt >= s[0].createdAt {
      var rest := InsertByCreatedAt(m, s[1..]);
      InsertKeepsSorted(m, s[1..]);
      forall x | x in rest
        ensures s[0].createdAt <= x.createdAt
      {
        assert x in multiset(rest);
        assert x == m || x in multiset(s[1..]);
      }
      var r := [s[0]] + rest;
      forall i, j | 0 <= i < j < |r|
        ensures r[i].createdAt <= r[j].createdAt
      {
        if i > 0 {
          assert r[i] == rest[i - 1] && r[j] == rest[j - 1];
        } else {
          assert r[j] in rest;
        }
      }
    }
  }

  /** `messages.sort((a, b) => a.createdAt - b.createdAt)`, as an
      insertion sort that keeps equal timestamps in stored order. */
  function SortByCreatedAt(s: seq<ChatMessage>): (r: seq<ChatMessage>)
    ensures multiset(r) == multiset(s)
    ensures SortedByCreatedAt(r)
  {
    if s == [] then []
    else
      var sortedInit := SortByCreatedAt(s[..|s| - 1]);
      InsertKeepsSorted(s[|s| - 1], sortedInit);
      assert s == s[..|s| - 1] + [s[|s| - 1]];
      InsertByCreatedAt(s[|s| - 1], sortedInit)
  }

  /** `getMessages`: every message of the deal, oldest first, whoever asks. */
  function GetMessages(messages: seq<ChatMessage>, caller: Principal, dealId: Id): (r: Reply<seq<ChatMessage>>)
    ensures r.Done? && r.code == CodeOk
    ensures SortedByCreatedAt(r.value)
    ensures forall m :: multiset(r.value)[m] == if m.dealId == dealId then multiset(messages)[m] else 0
  {
    var inDeal := (m: ChatMessage) => m.dealId == dealId;
    FilterMultiset(messages, inDeal);
    Done(CodeOk, SortByCreatedAt(Filter(messages, inDeal)))
  }

  /** Without a party check the reply depends on the deal alone. */
  lemma GetMessagesIgnoresCaller(messages: seq<ChatMessage>, a: Principal, b: Principal, dealId: Id)
    ensures GetMessages(messages, a, dealId) == GetMessages(messages, b, dealId)
  {
  }

  /** A message as `updateMany({dealId, receiver}, {isRead: true})` leaves it. */
  function MarkIfReceiver(m: ChatMessage, dealId: Id, receiver: Id): ChatMessage
  {
    if m.dealId == dealId && m.receiver == receiver then m.(isRead := true) else m
  }

  /** The collection after `markRead`: exactly the deal's messages received
      by the caller are read, every other message is as it was. */
  function MarkReadFor(msgs: seq<ChatMessage>, dealId: Id, receiver: Id): (r: seq<ChatMessage>)
    ensures |r| == |msgs|
    ensures forall k :: 0 <= k < |msgs| && msgs[k].dealId == dealId && msgs[k].receiver == receiver ==>
      r[k] == msgs[k].(isRead := true)
    ensures forall k :: 0 <= k < |msgs| && !(msgs[k].dealId == dealId && msgs[k].receiver == receiver) ==>
      r[k] == msgs[k]
  {
    if msgs == [] then [] else [MarkIfReceiver(msgs[0], dealId, receiver)] + MarkReadFor(msgs[1..], dealId, receiver)
  }

  lemma MarkReadIdempotent(msgs: seq<ChatMessage>, dealId: Id, receiver: Id)
    ensures MarkReadFor(MarkReadFor(msgs, dealId, receiver), dealId, receiver) == MarkReadFor(msgs, dealId, receiver)
  {
    var once := MarkReadFor(msgs, dealId, receiver);
    assert forall k :: 0 <= k < |msgs| ==> MarkReadFor(once, dealId, receiver)[k] == once[k];
  }

  /** The bulk update keyed on receiver never marks what the caller sent to
      someone else, even in the same deal. */
  lemma MarkReadSparesSentMessages(msgs: seq<ChatMessage>, dealId: Id, caller: Id, k: nat)
    requires k < |msgs| && msgs[k].sender == caller && msgs[k].receiver != caller
    ensures MarkReadFor(msgs, dealId, caller)[k] == msgs[k]
  {
  }

  /** `markRead`: no check on the body. Without a `dealId` the filter asks
      for `dealId: null`, which no stored message has (the field is
      required), so nothing is marked and the reply is still 200. */
  method MarkRead(store: MessageCollection, caller: Principal, dealId: Option<Id>) returns (reply: Reply<()>)
    requires store.Valid()
    modifies store
    ensures store.Valid()
    ensures reply == Done(CodeOk, ())
    ensures dealId.None? ==> store.messages == old(store.messages)
    ensures dealId.Some? ==> store.messages == MarkReadFor(old(store.messages), dealId.value, caller.id)
    ensures store.nextId == old(store.nextId)
  {
    if dealId.Some? {
      store.messages := MarkReadFor(store.messages, dealId.value, caller.id);
    }
    reply := Done(CodeOk, ());
  }
}

=== FILE: common.dfy ===
/** Values shared by every handler of the deal room: identifiers, the
    authenticated principal, HTTP replies and order-preserving filtering. */
module Common {

  datatype Option<T> = None | Some(value: T)

  /** A Mongo ObjectId, compared by its string form in the handlers. */
  type Id = nat

  /** The effective role enum of the user schema: buyer, seller or admin. */
  datatype Role = Buyer | Seller | Admin

  function RoleName(r: Role): string
  {
    match r
    case Buyer => "buyer"
    case Seller => "seller"
    case Admin => "admin"
  }

  /** `req.user` as the handlers read it: its id and its role. */
  datatype Principal = Principal(id: Id, role: Role)

  const CodeOk: nat := 200
  const CodeCreated: nat := 201
  const CodeBadRequest: nat := 400
  const CodeUnauthorized: nat := 401
  const CodeForbidden: nat := 403
  const CodeNotFound: nat := 404
  const CodeConflict: nat := 409
  const CodeServerError: nat := 500

  /** What a handler sends back: an error status, or a status with its payload. */
  datatype Reply<T> = Fail(code: nat) | Done(code: nat, value: T)

  /** `Array.prototype.filter`: the elements satisfying `p`, in their order. */
  function Filter<T(==,!new)>(s: seq<T>, p: T -> bool): (r: seq<T>)
    ensures |r| <= |s|
    ensures forall x :: x in r <==> x in s && p(x)
    ensures forall k :: 0 <= k < |r| ==> p(r[k])
  {
    if s == [] then []
    else if p(s[0]) then [s[0]] + Filter(s[1..], p)
    else Filter(s[1..], p)
  }

  /** `Array.prototype.findIndex`, with None for -1: the first position
      whose element satisfies `p`. */
  function FindFirst<T>(s: seq<T>, p: T -> bool): (r: Option<nat>)
    ensures r.Some? ==> r.value < |s| && p(s[r.value])
    ensures r.Some? ==> forall k :: 0 <= k < r.value ==> !p(s[k])
    ensures r.None? <==> forall k :: 0 <= k < |s| ==> !p(s[k])
  {
    if s == [] then None
    else if p(s[0]) then Some(0)
    else match FindFirst(s[1..], p)
      case None => None
      case Some(k) => Some(k + 1)
  }

  /** Filtering distributes over concatenation, so a store that grows at
      its end only grows the filtered view at its end. */
  lemma {:induction false} FilterAppend<T(!new)>(s: seq<T>, t: seq<T>, p: T -> bool)
    ensures Filter(s + t, p) == Filter(s, p) + Filter(t, p)
  {
    if s == [] {
      assert s + t == t;
    } else {
      assert (s + t)[1..] == s[1..] + t;
      FilterAppend(s[1..], t, p);
    }
  }

  /** Filtering keeps every matching element with its multiplicity. */
  lemma {:induction false} FilterMultiset<T(!new)>(s: seq<T>, p: T -> bool)
    ensures forall x :: multiset(Filter(s, p))[x] == if p(x) then multiset(s)[x] else 0
  {
    if s != [] {
      assert s == [s[0]] + s[1..];
      FilterMultiset(s[1..], p);
    }
  }
}

=== FILE: deal_controller.dfy ===
/** The deal handlers (backend/controllers/deal.controller.js): buyer-only
    creation, role-scoped listing, and the seller-owner status update. */
module DealController {
  import opened Common
  import opened DealModel

  /** `createDeal`: only a buyer may create; the record then goes through
      schema validation, whose failure lands in the catch-all 500. */
  method CreateDeal(store: DealCollection, caller: Principal, sellerId: Option<Id>,
                    title: Option<string>, description: Option<string>, price: Option<real>)
    returns (reply: Reply<Deal>)
    requires store.Valid()
    modifies store
    ensures store.Valid()
    ensures caller.role != Buyer ==>
      reply == Fail(CodeForbidden) && store.deals == old(store.deals)
    ensures caller.role == Buyer ==>
      match NewDeal(old(store.nextId), caller.id, sellerId, title, description, price)
      case None => reply == Fail(CodeServerError) && store.deals == old(store.deals)
      case Some(d) => reply == Done(CodeCreated, d) && store.deals == old(store.deals) + [d]
  {
    if caller.role != Buyer {
      return Fail(CodeForbidden);
    }
    var created := store.Create(caller.id, sellerId, title, description, price);
    if created.None? {
      return Fail(CodeServerError);
    }
    reply := Done(CodeCreated, created.value);
  }

  /** The query `getDeals` runs: a buyer sees its purchases, every other
      role (admin included) the deals it sells. */
  predicate Listed(caller: Principal, d: Deal)
  {
    if caller.role == Buyer then d.buyer == caller.id else d.seller == caller.id
  }

  /** `getDeals`: exactly the caller's deals, in stored order, as loaded
      (an unset status shows the default). */
  function GetDeals(deals: seq<Deal>, caller: Principal): (r: Reply<seq<Deal>>)
    ensures r.Done? && r.code == CodeOk
    ensures forall e :: e in deals && Listed(caller, e) ==> Loaded(e) in r.value
    ensures forall d :: d in r.value ==>
      && (if caller.role == Buyer then d.buyer == caller.id else d.seller == caller.id)
      && d.status.Some?
      && exists e :: e in deals && d == Loaded(e)
  {
    var listed := Filter(deals, d => Listed(caller, d));
    var loaded := LoadAll(listed);
    assert forall e :: e in listed ==> Loaded(e) in loaded by {
      forall e | e in listed
        ensures Loaded(e) in loaded
      {
        var i :| 0 <= i < |listed| && listed[i] == e;
        assert loaded[i] == Loaded(e);
      }
    }
    Done(CodeOk, loaded)
  }

  /** An admin is listed as a seller would be: it sees no deal it does not sell. */
  lemma AdminSeesOnlyOwnSales(deals: seq<Deal>, admin: Principal)
    requires admin.role == Admin
    ensures forall d :: d in GetDeals(deals, admin).value ==> d.seller == admin.id
  {
  }

  /** A deal created by a buyer shows up, loaded, at the end of that buyer's listing. */
  lemma {:induction false} CreatedDealIsListed(deals: seq<Deal>, buyer: Principal, d: Deal)
    requires buyer.role == Buyer && d.buyer == buyer.id
    ensures GetDeals(deals + [d], buyer).value == GetDeals(deals, buyer).value + [Loaded(d)]
  {
    var p := (x: Deal) => Listed(buyer, x);
    FilterAppend(deals, [d], p);
    var listed := Filter(deals, p);
    assert Filter(deals + [d], p) == listed + [d];
    assert LoadAll(listed + [d]) == LoadAll(listed) + [Loaded(d)];
  }

  /** `updateDeal`: the role check comes before any lookup, then the lookup,
      then ownership; the new status is assigned with no look at the current
      one, and a value outside the enum fails validation on save. */
  method UpdateDeal(store: DealCollection, caller: Principal, dealId: Id, status: Option<string>)
    returns (reply: Reply<Deal>)
    requires store.Valid()
    modifies store
    ensures store.Valid()
    ensures caller.role != Seller ==>
      reply == Fail(CodeForbidden) && store.deals == old(store.deals)
    ensures caller.role == Seller && FindDeal(old(store.deals), dealId).None? ==>
      reply == Fail(CodeNotFound) && store.deals == old(store.deals)
    ensures caller.role == Seller && FindDeal(old(store.deals), dealId).Some? ==>
      var k := FindDeal(old(store.deals), dealId).value;
      var d := old(store.deals)[k];
      if d.seller != caller.id then
        reply == Fail(CodeForbidden) && store.deals == old(store.deals)
      else if !StatusAllowed(status) then
        reply == Fail(CodeServerError) && store.deals == old(store.deals)
      else
        reply == Done(CodeOk, d.(status := status))
        && store.deals == old(store.deals)[k := d.(status := status)]
  {
    if caller.role != Seller {
      return Fail(CodeForbidden);
    }
    var found := FindDeal(store.deals, dealId);
    if found.None? {
      return Fail(CodeNotFound);
    }
    var k := found.value;
    var doc := new DealDocument.Hydrate(store.deals[k]);
    if doc.value.seller != caller.id {
      return Fail(CodeForbidden);
    }
    doc.SetStatus(status);
    var saved := store.Save(k, doc);
    if !saved {
      return Fail(CodeServerError);
    }
    reply := Done(CodeOk, doc.value);
  }

  /** No transition guard: from any status, an owning seller can set any
      enum value, including leaving Completed or Cancelled. */
  lemma AnyStatusReachable(d: Deal, target: string)
    requires target in StatusValues && DealValid(d)
    ensures DealValid(d.(status := Some(target)))
  {
  }
}

=== FILE: deal_model.dfy ===
/** The deal schema (backend/models/deal.model.js): the record shape, the
    status enum with its default, the embedded message and document shapes,
    the validation a save runs, the pre-save priceHistory hook, and the
    deal collection that `create`, `findById` and `save` act on. */
module DealModel {
  import opened Common

  /** The status enum, spelled as the schema spells it. */
  const StatusValues: seq<string> := ["Pending", "In Progress", "Completed", "Cancelled"]
  const DefaultStatus: string := "Pending"

  /** Mongoose's enum validator lets an unset value through. */
  predicate StatusAllowed(status: Option<string>)
  {
    status.None? || status.value in StatusValues
  }

  /** One entry pushed by the pre-save hook. */
  datatype PriceEntry = PriceEntry(price: Option<real>, updatedBy: Option<Id>)

  /** An element of `deal.messages`; `content` is whatever the request carried. */
  datatype EmbeddedMessage = EmbeddedMessage(
    id: Id, sender: Id, content: Option<string>, isRead: bool, createdAt: nat)

  /** One `accessControl` entry of an embedded document. */
  datatype AccessEntry = AccessEntry(user: Id, canView: bool)

  /** An element of `deal.documents`, in the shape its controller writes. */
  datatype EmbeddedDocument = EmbeddedDocument(
    id: Id, name: string, url: string, uploadedBy: Id, accessControl: seq<AccessEntry>)

  datatype Deal = Deal(
    id: Id,
    buyer: Id,
    seller: Id,
    title: string,
    description: string,
    price: real,
    status: Option<string>,
    documents: seq<EmbeddedDocument>,
    messages: seq<EmbeddedMessage>,
    priceHistory: seq<PriceEntry>)

  /** A required String rejects both a missing value and the empty string. */
  predicate RequiredString(v: Option<string>)
  {
    v.Some? && v.value != ""
  }

  /** An embedded message needs a sender (always set) and a non-empty content. */
  predicate MessageValid(m: EmbeddedMessage)
  {
    RequiredString(m.content)
  }

  /** What the schema validators check before a deal is written. */
  predicate DealValid(d: Deal)
  {
    && d.title != ""
    && d.description != ""
    && StatusAllowed(d.status)
    && forall k :: 0 <= k < |d.messages| ==> MessageValid(d.messages[k])
  }

  /** `dealModel.create(...)` from the request's fields: the required
      buyer, seller, title, description and price, the default status and
      empty arrays; None when validation rejects the record. */
  function NewDeal(id: Id, buyer: Id, seller: Option<Id>, title: Option<string>,
                   description: Option<string>, price: Option<real>): (r: Option<Deal>)
    ensures r.Some? <==>
      seller.Some? && RequiredString(title) && RequiredString(description) && price.Some?
    ensures r.Some? ==>
      && r.value.id == id && r.value.buyer == buyer && r.value.seller == seller.value
      && r.value.title == title.value && r.value.description == description.value
      && r.value.price == price.value
      && r.value.status == Some(DefaultStatus)
      && r.value.messages == [] && r.value.documents == [] && r.value.priceHistory == []
      && DealValid(r.value)
  {
    if seller.None? || !RequiredString(title) || !RequiredString(description) || price.None? then None
    else Some(Deal(id, buyer, seller.value, title.value, description.value, price.value,
                   Some(DefaultStatus), [], [], []))
  }

  /** The priceHistory the pre-save hook leaves: one entry is pushed when
      the path `currentPrice` was modified, and nothing else changes. */
  function HistoryAfterPreSave(history: seq<PriceEntry>, modified: set<string>,
                               currentPrice: Option<real>, docUpdatedBy: Option<Id>): (r: seq<PriceEntry>)
    ensures |r| == |history| + (if "currentPrice" in modified then 1 else 0)
    ensures r[..|history|] == history
    ensures "currentPrice" in modified ==>
      r[|history|].price == currentPrice && r[|history|].updatedBy == docUpdatedBy
  {
    if "currentPrice" in modified then
      history + [PriceEntry(currentPrice, if "currentPrice" in modified then docUpdatedBy else None)]
    else history
  }

  /** The schema has a `price` path but no `currentPrice` path, so a save
      that modified the price and nothing else records no history. */
  lemma PriceChangeRecordsNoHistory(history: seq<PriceEntry>, currentPrice: Option<real>,
                                    docUpdatedBy: Option<Id>)
    ensures HistoryAfterPreSave(history, {"price"}, currentPrice, docUpdatedBy) == history
  {
  }

  /** Two saves that both modified `currentPrice` append in order, keeping
      every earlier entry in place. */
  lemma {:induction false} PreSaveOnlyAppends(history: seq<PriceEntry>, m1: set<string>, m2: set<string>,
                                              p1: Option<real>, p2: Option<real>, u1: Option<Id>, u2: Option<Id>)
    requires "currentPrice" in m1 && "currentPrice" in m2
    ensures HistoryAfterPreSave(HistoryAfterPreSave(history, m1, p1, u1), m2, p2, u2)
            == history + [PriceEntry(p1, u1), PriceEntry(p2, u2)]
  {
    var h1 := HistoryAfterPreSave(history, m1, p1, u1);
    assert h1 == history + [PriceEntry(p1, u1)];
  }

  /** A stored record as `find` or `findById` hands it back: a record whose
      `status` was unset shows the schema default, and every other path is
      as stored. */
  function Loaded(d: Deal): (r: Deal)
    ensures r.status.Some?
    ensures d.status.Some? ==> r == d
    ensures d.status.None? ==> r == d.(status := Some(DefaultStatus))
    ensures DealValid(d) ==> DealValid(r)
  {
    if d.status.None? then d.(status := Some(DefaultStatus)) else d
  }

  /** The records a `find` query hands back, each loaded, in stored order. */
  function LoadAll(deals: seq<Deal>): (r: seq<Deal>)
    ensures |r| == |deals|
    ensures forall k :: 0 <= k < |deals| ==> r[k] == Loaded(deals[k])
  {
    seq(|deals|, k requires 0 <= k < |deals| => Loaded(deals[k]))
  }

  /** `Array.prototype.findIndex`-style lookup by `_id`: the first match. */
  function FindDeal(deals: seq<Deal>, id: Id): (r: Option<nat>)
    ensures r.Some? ==> r.value < |deals| && deals[r.value].id == id
    ensures r.Some? ==> forall k :: 0 <= k < r.value ==> deals[k].id != id
    ensures r.None? <==> forall k :: 0 <= k < |deals| ==> deals[k].id != id
  {
    FindFirst(deals, (d: Deal) => d.id == id)
  }

  /** With `_id` unique, as the collection keeps it, `findById` finds the
      one deal that has the id. */
  lemma FindDealUnique(deals: seq<Deal>, k: nat)
    requires forall i, j :: 0 <= i < j < |deals| ==> deals[i].id != deals[j].id
    requires k < |deals|
    ensures FindDeal(deals, deals[k].id) == Some(k)
  {
  }

  /** A deal as a handler holds it between `findById` and `save`: its value,
      the paths assigned since it was loaded, and the two properties the
      hook reads that are not schema paths. */
  class DealDocument {
    var value: Deal
    var modified: set<string>
    var currentPrice: Option<real>
    var docUpdatedBy: Option<Id>

    /** The document `findById` hands back; a default it applied is
        written by the next `save`, as a path in Mongoose's default state. */
    constructor Hydrate(d: Deal)
      ensures value == Loaded(d) && modified == {} && currentPrice == None && docUpdatedBy == None
    {
      value := Loaded(d);
      modified := {};
      currentPrice := None;
      docUpdatedBy := None;
    }

    /** `dealSchema.pre('save', ...)`: push onto priceHistory in place. */
    method PreSave()
      modifies this`value
      ensures value == old(value).(priceHistory :=
        HistoryAfterPreSave(old(value).priceHistory, modified, currentPrice, docUpdatedBy))
    {
      if "currentPrice" in modified {
        var updatedBy := if "currentPrice" in modified then docUpdatedBy else None;
        value := value.(priceHistory := value.priceHistory + [PriceEntry(currentPrice, updatedBy)]);
      }
    }

    /** `deal.status = status`. */
    method SetStatus(status: Option<string>)
      modifies this`value, this`modified
      ensures value == old(value).(status := status)
      ensures modified == old(modified) + {"status"}
    {
      value := value.(status := status);
      modified := modified + {"status"};
    }

    /** `deal.messages.push(m)`. */
    method PushMessage(m: EmbeddedMessage)
      modifies this`value, this`modified
      ensures value == old(value).(messages := old(value).messages + [m])
      ensures modified == old(modified) + {"messages"}
    {
      value := value.(messages := value.messages + [m]);
      modified := modified + {"messages"};
    }

    /** `message.isRead = true` on the message at position k. */
    method MarkMessageRead(k: nat)
      requires k < |value.messages|
      modifies this`value, this`modified
      ensures value == old(value).(messages := old(value).messages[k := old(value).messages[k].(isRead := true)])
      ensures modified == old(modified) + {"messages"}
    {
      value := value.(messages := value.messages[k := value.messages[k].(isRead := true)]);
      modified := modified + {"messages"};
    }

    /** `deal.documents.push(doc)`. */
    method PushDocument(doc: EmbeddedDocument)
      modifies this`value, this`modified
      ensures value == old(value).(documents := old(value).documents + [doc])
      ensures modified == old(modified) + {"documents"}
    {
      value := value.(documents := value.documents + [doc]);
      modified := modified + {"documents"};
    }

    /** `document.accessControl = acl` on the document at position k. */
    method SetAccessControl(k: nat, acl: seq<AccessEntry>)
      requires k < |value.documents|
      modifies this`value, this`modified
      ensures value == old(value).(documents := old(value).documents[k := old(value).documents[k].(accessControl := acl)])
      ensures modified == old(modified) + {"documents"}
    {
      value := value.(documents := value.documents[k := value.documents[k].(accessControl := acl)]);
      modified := modified + {"documents"};
    }

    /** `document.remove()` on the document at position k. */
    method RemoveDocument(k: nat)
      requires k < |value.documents|
      modifies this`value, this`modified
      ensures value == old(value).(documents := old(value).documents[..k] + old(value).documents[k + 1..])
      ensures modified == old(modified) + {"documents"}
    {
      value := value.(documents := value.documents[..k] + value.documents[k + 1..]);
      modified := modified + {"documents"};
    }
  }

  /** The `deal` collection, in insertion order, with the counter that
      stands for ObjectId generation (deals and their subdocuments). */
  class DealCollection {
    var deals: seq<Deal>
    var nextId: Id

    /** Every stored deal passed validation and has an id already issued;
        no two deals share an `_id`. */
    ghost predicate Valid()
      reads this
    {
      && (forall k :: 0 <= k < |deals| ==> DealValid(deals[k]) && deals[k].id < nextId)
      && (forall i, j :: 0 <= i < j < |deals| ==> deals[i].id != deals[j].id)
    }

    constructor ()
      ensures Valid() && deals == [] && nextId == 0
    {
      deals := [];
      nextId := 0;
    }

    /** A fresh ObjectId. */
    method FreshId() returns (id: Id)
      requires Valid()
      modifies this`nextId
      ensures Valid()
      ensures id == old(nextId) && nextId == old(nextId) + 1
    {
      id := nextId;
      nextId := nextId + 1;
    }

    /** `dealModel.create(...)`: validate, then insert at the end. */
    method Create(buyer: Id, seller: Option<Id>, title: Option<string>,
                  description: Option<string>, price: Option<real>) returns (r: Option<Deal>)
      requires Valid()
      modifies this
      ensures Valid()
      ensures r == NewDeal(old(nextId), buyer, seller, title, description, price)
      ensures r.Some? ==> deals == old(deals) + [r.value] && nextId == old(nextId) + 1
      ensures r.None? ==> deals == old(deals) && nextId == old(nextId)
    {
      r := NewDeal(nextId, buyer, seller, title, description, price);
      if r.Some? {
        deals := deals + [r.value];
        nextId := nextId + 1;
      }
    }

    /** `deal.save()` for the deal stored at position k: the validators run
        first; only if they pass does the pre-save hook run and the record
        get written back. */
    method Save(k: nat, doc: DealDocument) returns (ok: bool)
      requires Valid()
      requires k < |deals| && deals[k].id == doc.value.id
      modifies this`deals, doc`value
      ensures Valid()
      ensures ok == DealValid(old(doc.value))
      ensures ok ==> doc.value == old(doc.value).(priceHistory :=
        HistoryAfterPreSave(old(doc.value).priceHistory, doc.modified, doc.currentPrice, doc.docUpdatedBy))
      ensures ok ==> deals == old(deals)[k := doc.value]
      ensures !ok ==> deals == old(deals) && doc.value == old(doc.value)
    {
      ok := DealValid(doc.value);
      if ok {
        doc.PreSave();
        deals := deals[k := doc.value];
      }
    }
  }
}

=== FILE: deal_slice.dfy ===
/** The client deal state (frontend/src/store/slices/dealSlice.js):
    `clearError` and the pending/fulfilled/rejected cases of the request
    thunks, as methods on the slice state. */
module DealSlice {
  import opened Common

  /** A deal as the client holds it: its `_id` (possibly absent) and
      whatever other fields the server sent. */
  datatype ClientDeal = ClientDeal(id: Option<string>, fields: map<string, string>)

  /** `findIndex` on `_id`: the first match. */
  function FindIndexById(deals: seq<ClientDeal>, id: Option<string>): (r: Option<nat>)
    ensures r.Some? ==> r.value < |deals| && deals[r.value].id == id
    ensures r.Some? ==> forall k :: 0 <= k < r.value ==> deals[k].id != id
    ensures r.None? <==> forall k :: 0 <= k < |deals| ==> deals[k].id != id
  {
    FindFirst(deals, (d: ClientDeal) => d.id == id)
  }

  /** The list after `state.deals[index] = payload` when the index was found. */
  function ReplaceFirstById(deals: seq<ClientDeal>, d: ClientDeal): (r: seq<ClientDeal>)
    ensures |r| == |deals|
    ensures FindIndexById(deals, d.id).None? ==> r == deals
    ensures FindIndexById(deals, d.id).Some? ==>
      && r[FindIndexById(deals, d.id).value] == d
      && forall k :: 0 <= k < |deals| && k != FindIndexById(deals, d.id).value ==> r[k] == deals[k]
  {
    match FindIndexById(deals, d.id)
    case None => deals
    case Some(k) => deals[k := d]
  }

  /** Replacing with the same payload twice is replacing it once. */
  lemma {:induction false} ReplaceFirstByIdIdempotent(deals: seq<ClientDeal>, d: ClientDeal)
    ensures ReplaceFirstById(ReplaceFirstById(deals, d), d) == ReplaceFirstById(deals, d)
  {
    var once := ReplaceFirstById(deals, d);
    if FindIndexById(deals, d.id).Some? {
      var k := FindIndexById(deals, d.id).value;
      assert forall j :: 0 <= j < k ==> once[j] == deals[j];
      assert FindIndexById(once, d.id) == Some(k);
    }
  }

  /** `state.currentDeal?._id`: absent when there is no current deal. */
  function CurrentId(current: Option<ClientDeal>): Option<string>
  {
    if current.None? then None else current.value.id
  }

  /** The current deal after a payload arrives: replaced exactly when the
      optional-chained ids are strictly equal. */
  function CurrentAfter(current: Option<ClientDeal>, d: ClientDeal): (r: Option<ClientDeal>)
    ensures r == Some(d) || r == current
    ensures CurrentId(current) == d.id ==> r == Some(d)
    ensures CurrentId(current) != d.id ==> r == current
  {
    if CurrentId(current) == d.id then Some(d) else current
  }

  /** With no current deal, a payload without `_id` becomes the current
      deal, since an absent id equals an absent id. */
  lemma NoCurrentDealAdoptsPayloadWithoutId(d: ClientDeal)
    requires d.id.None?
    ensures CurrentAfter(None, d) == Some(d)
  {
  }

  /** The slice state. */
  class DealState {
    var deals: seq<ClientDeal>
    var currentDeal: Option<ClientDeal>
    var loading: bool
    var error: Option<string>

    /** `initialState`. */
    constructor ()
      ensures deals == [] && currentDeal == None && !loading && error == None
    {
      deals := [];
      currentDeal := None;
      loading := false;
      error := None;
    }

    /** `clearError`. */
    method ClearError()
      modifies this`error
      ensures error == None
    {
      error := None;
    }

    /** The `pending` case of every thunk. */
    method Pending()
      modifies this`loading
      ensures loading
    {
      loading := true;
    }

    /** The `rejected` case of every thunk: the payload's `message`. */
    method Rejected(payloadMessage: Option<string>)
      modifies this`loading, this`error
      ensures !loading && error == payloadMessage
    {
      loading := false;
      error := payloadMessage;
    }

    /** `createDeal.fulfilled`: push the payload. */
    method CreateDealFulfilled(d: ClientDeal)
      modifies this`loading, this`deals
      ensures !loading && deals == old(deals) + [d]
    {
      loading := false;
      deals := deals + [d];
    }

    /** `getDeals.fulfilled`: the payload replaces the list. */
    method GetDealsFulfilled(payload: seq<ClientDeal>)
      modifies this`loading, this`deals
      ensures !loading && deals == payload
    {
      loading := false;
      deals := payload;
    }

    /** `getDeal.fulfilled`: the payload becomes the current deal. */
    method GetDealFulfilled(d: ClientDeal)
      modifies this`loading, this`currentDeal
      ensures !loading && currentDeal == Some(d)
    {
      loading := false;
      currentDeal := Some(d);
    }

    /** `updateDealPrice.fulfilled` and `updateDealStatus.fulfilled` (the
        same code): replace the first deal with the payload's `_id`, then
        the current deal when its `_id` matches. */
    method UpdateDealFulfilled(d: ClientDeal)
      modifies this`loading, this`deals, this`currentDeal
      ensures !loading
      ensures deals == ReplaceFirstById(old(deals), d)
      ensures currentDeal == CurrentAfter(old(currentDeal), d)
    {
      loading := false;
      var index := 0;
      while index < |deals| && deals[index].id != d.id
        invariant 0 <= index <= |deals|
        invariant forall k :: 0 <= k < index ==> deals[k].id != d.id
      {
        index := index + 1;
      }
      if index < |deals| {
        deals := deals[index := d];
      }
      if CurrentId(currentDeal) == d.id {
        currentDeal := Some(d);
      }
    }

    /** `uploadDocument.fulfilled`: only the current deal may change. */
    method UploadDocumentFulfilled(d: ClientDeal)
      modifies this`loading, this`currentDeal
      ensures !loading && currentDeal == CurrentAfter(old(currentDeal), d)
    {
      loading := false;
      if CurrentId(currentDeal) == d.id {
        currentDeal := Some(d);
      }
    }
  }
}

=== FILE: document_embedded.dfy ===
/** The document handlers that keep documents inside the deal record
    (backend/controllers/documentController.js): upload and listing are
    for the deal's parties; replacing the access list and deleting are for
    the uploader. The disk storage and file removal are not modelled. */
module EmbeddedDocuments {
  import opened Common
  import opened DealModel
  import opened EmbeddedChat

  /** The file multer accepted: its original name and its stored file name. */
  datatype UploadedFile = UploadedFile(originalname: string, filename: string)

  const UploadPrefix: string := "/uploads/documents/"

  /** `uploadDocument`: deal, then party, then file; the new entry has an
      empty access list and goes to the end of `deal.documents`. */
  method UploadDocument(store: DealCollection, caller: Principal, dealId: Id, file: Option<UploadedFile>)
    returns (reply: Reply<EmbeddedDocument>)
    requires store.Valid()
    modifies store
    ensures store.Valid()
    ensures PartyLookup(old(store.deals), dealId, caller).Fail? ==>
      reply.code == PartyLookup(old(store.deals), dealId, caller).code
      && store.deals == old(store.deals)
    ensures PartyLookup(old(store.deals), dealId, caller).Done? && file.None? ==>
      reply == Fail(CodeBadRequest) && store.deals == old(store.deals)
    ensures PartyLookup(old(store.deals), dealId, caller).Done? && file.Some? ==>
      var k := PartyLookup(old(store.deals), dealId, caller).value;
      var d := Loaded(old(store.deals)[k]);
      && reply.Done? && reply.code == CodeCreated
      && reply.value.name == file.value.originalname
      && reply.value.url == UploadPrefix + file.value.filename
      && reply.value.uploadedBy == caller.id
      && reply.value.accessControl == []
      && store.deals == old(store.deals)[k := d.(documents := d.documents + [reply.value])]
  {
    var access := PartyLookup(store.deals, dealId, caller);
    if access.Fail? {
      return Fail(access.code);
    }
    if file.None? {
      return Fail(CodeBadRequest);
    }
    var k := access.value;
    var doc := new DealDocument.Hydrate(store.deals[k]);
    var id := store.FreshId();
    var document := EmbeddedDocument(id, file.value.originalname, UploadPrefix + file.value.filename, caller.id, []);
    doc.PushDocument(document);
    var saved := store.Save(k, doc);
    assert saved;
    reply := Done(CodeCreated, document);
  }

  /** The access-control test of `getDocuments`: an entry for the user
      grants sight only when its `canView` is true. */
  predicate CanView(doc: EmbeddedDocument, user: Id)
  {
    doc.uploadedBy == user
    || exists k :: 0 <= k < |doc.accessControl| && doc.accessControl[k].user == user && doc.accessControl[k].canView
  }

  /** `getDocuments`: parties only; then exactly the documents the caller
      uploaded or holds a viewing entry for, in stored order. */
  function GetDocuments(deals: seq<Deal>, caller: Principal, dealId: Id): (r: Reply<seq<EmbeddedDocument>>)
    ensures r.Fail? <==> PartyLookup(deals, dealId, caller).Fail?
    ensures r.Fail? ==> r.code == PartyLookup(deals, dealId, caller).code
    ensures r.Done? ==>
      var docs := deals[PartyLookup(deals, dealId, caller).value].documents;
      r.code == CodeOk
      && forall doc :: doc in r.value <==> doc in docs && CanView(doc, caller.id)
  {
    match PartyLookup(deals, dealId, caller)
    case Fail(code) => Fail(code)
    case Done(_, k) => Done(CodeOk, Filter(deals[k].documents, (doc: EmbeddedDocument) => CanView(doc, caller.id)))
  }

  /** An entry with `canView` false grants nothing. */
  lemma HiddenEntryGrantsNothing(doc: EmbeddedDocument, user: Id)
    requires doc.uploadedBy != user
    requires forall k :: 0 <= k < |doc.accessControl| && doc.accessControl[k].user == user ==> !doc.accessControl[k].canView
    ensures !CanView(doc, user)
  {
  }

  /** `deal.documents.id(documentId)`: the first subdocument with that `_id`. */
  function FindEmbeddedDocument(docs: seq<EmbeddedDocument>, id: Id): (r: Option<nat>)
    ensures r.Some? ==> r.value < |docs| && docs[r.value].id == id
    ensures r.Some? ==> forall k :: 0 <= k < r.value ==> docs[k].id != id
    ensures r.None? <==> forall k :: 0 <= k < |docs| ==> docs[k].id != id
  {
    FindFirst(docs, (d: EmbeddedDocument) => d.id == id)
  }

  /** The guards shared by the uploader-only handlers: deal, document,
      uploader, with no party check. On success, the positions of the
      deal and of the document inside it. */
  function UploaderLookup(deals: seq<Deal>, dealId: Id, documentId: Id, caller: Principal): (r: Reply<(nat, nat)>)
    ensures r == Fail(CodeNotFound) <==>
      FindDeal(deals, dealId).None?
      || FindEmbeddedDocument(deals[FindDeal(deals, dealId).value].documents, documentId).None?
    ensures r == Fail(CodeForbidden) <==>
      && FindDeal(deals, dealId).Some?
      && var docs := deals[FindDeal(deals, dealId).value].documents;
      && FindEmbeddedDocument(docs, documentId).Some?
      && docs[FindEmbeddedDocument(docs, documentId).value].uploadedBy != caller.id
    ensures r.Done? ==>
      && r.code == CodeOk
      && Some(r.value.0) == FindDeal(deals, dealId)
      && r.value.0 < |deals|
      && Some(r.value.1) == FindEmbeddedDocument(deals[r.value.0].documents, documentId)
      && r.value.1 < |deals[r.value.0].documents|
      && deals[r.value.0].documents[r.value.1].uploadedBy == caller.id
  {
    match FindDeal(deals, dealId)
    case None => Fail(CodeNotFound)
    case Some(k) =>
      match FindEmbeddedDocument(deals[k].documents, documentId)
      case None => Fail(CodeNotFound)
      case Some(j) =>
        if deals[k].documents[j].uploadedBy != caller.id then Fail(CodeForbidden)
        else Done(CodeOk, (k, j))
  }

  /** `updateDocumentAccess`: the one document's access list is replaced
      wholesale; every other document and deal is unchanged. */
  method UpdateDocumentAccess(store: DealCollection, caller: Principal, dealId: Id, documentId: Id,
                              accessControl: seq<AccessEntry>)
    returns (reply: Reply<EmbeddedDocument>)
    requires store.Valid()
    modifies store
    ensures store.Valid()
    ensures UploaderLookup(old(store.deals), dealId, documentId, caller).Fail? ==>
      reply.code == UploaderLookup(old(store.deals), dealId, documentId, caller).code
      && store.deals == old(store.deals)
    ensures UploaderLookup(old(store.deals), dealId, documentId, caller).Done? ==>
      var (k, j) := UploaderLookup(old(store.deals), dealId, documentId, caller).value;
      var d := Loaded(old(store.deals)[k]);
      var updated := d.documents[j].(accessControl := accessControl);
      reply == Done(CodeOk, updated)
      && store.deals == old(store.deals)[k := d.(documents := d.documents[j := updated])]
  {
    var access := UploaderLookup(store.deals, dealId, documentId, caller);
    if access.Fail? {
      return Fail(access.code);
    }
    var (k, j) := access.value;
    var doc := new DealDocument.Hydrate(store.deals[k]);
    doc.SetAccessControl(j, accessControl);
    var saved := store.Save(k, doc);
    assert saved;
    reply := Done(CodeOk, doc.value.documents[j]);
  }

  /** `deleteDocument`: the uploader removes exactly that one entry. */
  method DeleteDocument(store: DealCollection, caller: Principal, dealId: Id, documentId: Id)
    returns (reply: Reply<()>)
    requires store.Valid()
    modifies store
    ensures store.Valid()
    ensures UploaderLookup(old(store.deals), dealId, documentId, caller).Fail? ==>
      reply.code == UploaderLookup(old(store.deals), dealId, documentId, caller).code
      && store.deals == old(store.deals)
    ensures UploaderLookup(old(store.deals), dealId, documentId, caller).Done? ==>
      var (k, j) := UploaderLookup(old(store.deals), dealId, documentId, caller).value;
      var d := Loaded(old(store.deals)[k]);
      reply == Done(CodeOk, ())
      && store.deals == old(store.deals)[k := d.(documents := d.documents[..j] + d.documents[j + 1..])]
  {
    var access := UploaderLookup(store.deals, dealId, documentId, caller);
    if access.Fail? {
      return Fail(access.code);
    }
    var (k, j) := access.value;
    var doc := new DealDocument.Hydrate(store.deals[k]);
    doc.RemoveDocument(j);
    var saved := store.Save(k, doc);
    assert saved;
    reply := Done(CodeOk, ());
  }
}

=== FILE: document_standalone.dfy ===
/** The document handlers over a document collection of their own
    (backend/controllers/document.Controller.js, backend/models/document.model.js):
    upload through the object store, an access-filtered listing, and the
    uploader's set-add grant. */
module StandaloneDocuments {
  import opened Common

  datatype Document = Document(
    id: Id, dealId: Id, uploadedBy: Id, docsUrl: string, accessUser: seq<Id>)

  /** The `allowedUsers` body field: absent or empty, a JSON list of ids,
      or text that `JSON.parse` (or the cast to ids) rejects. */
  datatype AllowedUsers = NotGiven | Parsed(ids: seq<Id>) | Unparseable

  /** The `document` collection in insertion order. */
  class DocumentCollection {
    var documents: seq<Document>
    var nextId: Id

    /** Every stored document has its required URL and an id already
        issued; no two documents share an `_id`. */
    ghost predicate Valid()
      reads this
    {
      && (forall k :: 0 <= k < |documents| ==> documents[k].docsUrl != "" && documents[k].id < nextId)
      && (forall i, j :: 0 <= i < j < |documents| ==> documents[i].id != documents[j].id)
    }

    constructor ()
      ensures Valid() && documents == [] && nextId == 0
    {
      documents := [];
      nextId := 0;
    }
  }

  /** How an upload ends before anything is written: the status code of the
      first check that fails, or None when the document is created. The
      local path comes from multer; `cloudUrl` is what the object store
      answered for it. */
  function UploadCheck(dealId: Option<Id>, allowedUsers: AllowedUsers,
                       filePath: Option<string>, cloudUrl: Option<string>): (r: Option<nat>)
    ensures r == None <==>
      filePath.Some? && filePath.value != "" && cloudUrl.Some? && cloudUrl.value != ""
      && !allowedUsers.Unparseable? && dealId.Some?
    ensures r == Some(CodeBadRequest) <==> filePath.None? || filePath.value == ""
    ensures r.Some? ==> r.value in {CodeBadRequest, CodeServerError}
  {
    if filePath.None? || filePath.value == "" then Some(CodeBadRequest)
    else if cloudUrl.None? || cloudUrl.value == "" then Some(CodeServerError)
    else if allowedUsers.Unparseable? || dealId.None? then Some(CodeServerError)
    else None
  }

  /** `uploadDocument`. The object store is called only once a file path is
      present; its answer is the parameter `cloudUrl`. The success reply
      is status 200 (with `success: false` in its body). */
  method UploadDocument(store: DocumentCollection, caller: Principal, dealId: Option<Id>,
                        allowedUsers: AllowedUsers, filePath: Option<string>, cloudUrl: Option<string>)
    returns (reply: Reply<Document>)
    requires store.Valid()
    modifies store
    ensures store.Valid()
    ensures UploadCheck(dealId, allowedUsers, filePath, cloudUrl).Some? ==>
      reply == Fail(UploadCheck(dealId, allowedUsers, filePath, cloudUrl).value)
      && store.documents == old(store.documents)
    ensures UploadCheck(dealId, allowedUsers, filePath, cloudUrl).None? ==>
      && reply.Done? && reply.code == CodeOk
      && reply.value.id == old(store.nextId)
      && reply.value.dealId == dealId.value
      && reply.value.uploadedBy == caller.id
      && reply.value.docsUrl == cloudUrl.value
      && reply.value.accessUser == (if allowedUsers.Parsed? then allowedUsers.ids else [])
      && store.documents == old(store.documents) + [reply.value]
  {
    var check := UploadCheck(dealId, allowedUsers, filePath, cloudUrl);
    if check.Some? {
      return Fail(check.value);
    }
    var accessUser := if allowedUsers.Parsed? then allowedUsers.ids else [];
    var document := Document(store.nextId, dealId.value, caller.id, cloudUrl.value, accessUser);
    store.documents := store.documents + [document];
    store.nextId := store.nextId + 1;
    reply := Done(CodeOk, document);
  }

  predicate CanSee(d: Document, user: Id)
  {
    d.uploadedBy == user || user in d.accessUser
  }

  /** `getDocuments`: the deal's documents the caller uploaded or was
      granted, in stored order; anyone else gets a shorter list, never an error. */
  function GetDocuments(documents: seq<Document>, caller: Principal, dealId: Id): (r: Reply<seq<Document>>)
    ensures r.Done? && r.code == CodeOk
    ensures forall d :: d in r.value <==>
      d in documents && d.dealId == dealId && (d.uploadedBy == caller.id || caller.id in d.accessUser)
  {
    Done(CodeOk, Filter(documents, (d: Document) => d.dealId == dealId && CanSee(d, caller.id)))
  }

  /** `grantAccess`'s list update: push the user only when absent. */
  function WithGrant(accessUser: seq<Id>, user: Id): (r: seq<Id>)
    ensures user in r
    ensures forall u :: u in r <==> u in accessUser || u == user
    ensures |accessUser| <= |r| <= |accessUser| + 1
    ensures r[..|accessUser|] == accessUser
    ensures user in accessUser ==> r == accessUser
  {
    if user in accessUser then accessUser else accessUser + [user]
  }

  /** A repeated grant is a no-op. */
  lemma GrantIdempotent(accessUser: seq<Id>, user: Id)
    ensures WithGrant(WithGrant(accessUser, user), user) == WithGrant(accessUser, user)
  {
  }

  /** Grants never introduce a duplicate. */
  lemma GrantKeepsDistinct(accessUser: seq<Id>, user: Id)
    requires forall i, j :: 0 <= i < j < |accessUser| ==> accessUser[i] != accessUser[j]
    ensures var r := WithGrant(accessUser, user);
      forall i, j :: 0 <= i < j < |r| ==> r[i] != r[j]
  {
  }

  /** Position of the document with the given `_id`, if any. */
  function FindDocument(documents: seq<Document>, id: Id): (r: Option<nat>)
    ensures r.Some? ==> r.value < |documents| && documents[r.value].id == id
    ensures r.None? <==> forall k :: 0 <= k < |documents| ==> documents[k].id != id
  {
    FindFirst(documents, (d: Document) => d.id == id)
  }

  /** `grantAccess`: 404 before 403, then the set-add on that one document. */
  method GrantAccess(store: DocumentCollection, caller: Principal, documentId: Id, userId: Id)
    returns (reply: Reply<()>)
    requires store.Valid()
    modifies store
    ensures store.Valid()
    ensures FindDocument(old(store.documents), documentId).None? ==>
      reply == Fail(CodeNotFound) && store.documents == old(store.documents)
    ensures FindDocument(old(store.documents), documentId).Some? ==>
      var k := FindDocument(old(store.documents), documentId).value;
      var d := old(store.documents)[k];
      if d.uploadedBy != caller.id then
        reply == Fail(CodeForbidden) && store.documents == old(store.documents)
      else
        reply == Done(CodeOk, ())
        && store.documents == old(store.documents)[k := d.(accessUser := WithGrant(d.accessUser, userId))]
  {
    var found := FindDocument(store.documents, documentId);
    if found.None? {
      return Fail(CodeNotFound);
    }
    var k := found.value;
    var document := store.documents[k];
    if document.uploadedBy != caller.id {
      return Fail(CodeForbidden);
    }
    if userId !in document.accessUser {
      store.documents := store.documents[k := document.(accessUser := document.accessUser + [userId])];
    }
    reply := Done(CodeOk, ());
  }

  /** After a grant the grantee sees the document in its deal's listing. */
  lemma {:induction false} GrantMakesVisible(documents: seq<Document>, k: nat, grantee: Principal)
    requires k < |documents|
    ensures var d := documents[k].(accessUser := WithGrant(documents[k].accessUser, grantee.id));
      d in GetDocuments(documents[k := d], grantee, d.dealId).value
  {
    var d := documents[k].(accessUser := WithGrant(documents[k].accessUser, grantee.id));
    assert documents[k := d][k] == d;
  }
}

=== FILE: realtime.dfy ===
/** The socket handlers of backend/server.js as a room registry: which
    sockets are in which deal room, and which socket receives which event
    when a client emits one. No handler reads or writes a collection. */
module Realtime {

  type SocketId = nat

  /** A room is named by the dealId the client sent. */
  type Room = string

  /** What a client emits, with the payload fields the handler reads.
      `SendMessage` keeps any other fields the client sent in `extra`. */
  datatype ClientEvent =
    | JoinRoom(room: Room)
    | ChatPrice(room: Room, newPrice: real)
    | SendMessage(room: Room, senderId: string, receiverId: string, content: string, extra: map<string, string>)
    | Typing(room: Room, userId: string)
    | ReadMessages(room: Room)
    | LeaveRoom(room: Room)
    | Disconnect

  /** What the server emits. */
  datatype ServerEvent =
    | PriceUpdated(room: Room, newPrice: real)
    | NewMessage(room: Room, senderId: string, receiverId: string, content: string, isRead: bool)
    | UserTyping(userId: string)
    | MessagesRead

  /** One event arriving at one socket. */
  datatype Delivery = Delivery(to: SocketId, event: ServerEvent)

  function Members(rooms: map<Room, set<SocketId>>, room: Room): set<SocketId>
  {
    if room in rooms then rooms[room] else {}
  }

  /** The membership after the event: `joinRoom` adds the socket to its
      room, a disconnect drops it from every room (socket.io does this
      itself), and nothing else changes it. */
  function RoomsAfter(rooms: map<Room, set<SocketId>>, socket: SocketId, ev: ClientEvent): (r: map<Room, set<SocketId>>)
    ensures ev.JoinRoom? ==>
      && Members(r, ev.room) == Members(rooms, ev.room) + {socket}
      && forall room :: room != ev.room ==> Members(r, room) == Members(rooms, room)
    ensures ev.Disconnect? ==> forall room :: Members(r, room) == Members(rooms, room) - {socket}
    ensures !ev.JoinRoom? && !ev.Disconnect? ==> r == rooms
  {
    match ev
    case JoinRoom(room) => rooms[room := Members(rooms, room) + {socket}]
    case Disconnect => map room | room in rooms :: rooms[room] - {socket}
    case _ => rooms
  }

  /** `io.to(room).emit(e)`: every member of the room. */
  function ToRoom(rooms: map<Room, set<SocketId>>, room: Room, e: ServerEvent): (out: set<Delivery>)
    ensures forall d :: d in out <==> d.to in Members(rooms, room) && d.event == e
  {
    set s | s in Members(rooms, room) :: Delivery(s, e)
  }

  /** `socket.to(room).emit(e)`: every member of the room but the emitter. */
  function ToOthers(rooms: map<Room, set<SocketId>>, room: Room, socket: SocketId, e: ServerEvent): (out: set<Delivery>)
    ensures forall d :: d in out <==> d.to in Members(rooms, room) && d.to != socket && d.event == e
  {
    set s | s in Members(rooms, room) && s != socket :: Delivery(s, e)
  }

  /** The events one client event causes, on the membership it finds. */
  function Deliveries(rooms: map<Room, set<SocketId>>, socket: SocketId, ev: ClientEvent): (out: set<Delivery>)
    ensures ev.JoinRoom? || ev.LeaveRoom? || ev.Disconnect? ==> out == {}
    ensures ev.ChatPrice? ==> forall d :: d in out <==>
      d.to in Members(rooms, ev.room) && d.event == PriceUpdated(ev.room, ev.newPrice)
    ensures ev.SendMessage? ==> forall d :: d in out <==>
      d.to in Members(rooms, ev.room) && d.event == NewMessage(ev.room, ev.senderId, ev.receiverId, ev.content, false)
    ensures ev.Typing? ==> forall d :: d in out <==>
      d.to in Members(rooms, ev.room) && d.to != socket && d.event == UserTyping(ev.userId)
    ensures ev.ReadMessages? ==> forall d :: d in out <==>
      d.to in Members(rooms, ev.room) && d.event == MessagesRead
  {
    match ev
    case JoinRoom(_) => {}
    case ChatPrice(room, newPrice) => ToRoom(rooms, room, PriceUpdated(room, newPrice))
    case SendMessage(room, senderId, receiverId, content, _) =>
      ToRoom(rooms, room, NewMessage(room, senderId, receiverId, content, false))
    case Typing(room, userId) => ToOthers(rooms, room, socket, UserTyping(userId))
    case ReadMessages(room) => ToRoom(rooms, room, MessagesRead)
    case LeaveRoom(_) => {}
    case Disconnect => {}
  }

  /** The server's view of the connected sockets' rooms. */
  class RoomRegistry {
    var rooms: map<Room, set<SocketId>>

    constructor ()
      ensures rooms == map[]
    {
      rooms := map[];
    }

    /** Run the handler for one event from `socket`. */
    method Handle(socket: SocketId, ev: ClientEvent) returns (out: set<Delivery>)
      modifies this
      ensures rooms == RoomsAfter(old(rooms), socket, ev)
      ensures out == Deliveries(old(rooms), socket, ev)
    {
      out := Deliveries(rooms, socket, ev);
      match ev {
        case JoinRoom(room) =>
          rooms := rooms[room := Members(rooms, room) + {socket}];
        case Disconnect =>
          rooms := map room | room in rooms :: rooms[room] - {socket};
        case _ =>
      }
    }
  }

  /** A socket that joined a room receives its own messages. */
  lemma {:induction false} SenderHearsOwnMessage(rooms: map<Room, set<SocketId>>, socket: SocketId,
                                                 room: Room, senderId: string, receiverId: string,
                                                 content: string, extra: map<string, string>)
    ensures var joined := RoomsAfter(rooms, socket, JoinRoom(room));
      Delivery(socket, NewMessage(room, senderId, receiverId, content, false))
        in Deliveries(joined, socket, SendMessage(room, senderId, receiverId, content, extra))
  {
    var joined := RoomsAfter(rooms, socket, JoinRoom(room));
    assert socket in Members(joined, room);
  }

  /** The broadcast message depends on the four named fields only: what
      else the client sent never reaches anyone. */
  lemma ExtraFieldsAreDropped(rooms: map<Room, set<SocketId>>, socket: SocketId, room: Room,
                              senderId: string, receiverId: string, content: string,
                              extra1: map<string, string>, extra2: map<string, string>)
    ensures Deliveries(rooms, socket, SendMessage(room, senderId, receiverId, content, extra1))
         == Deliveries(rooms, socket, SendMessage(room, senderId, receiverId, content, extra2))
  {
  }

  /** Every other member of the room sees a typing notice; the typist does not. */
  lemma TypingReachesOthers(rooms: map<Room, set<SocketId>>, socket: SocketId, room: Room,
                            userId: string, other: SocketId)
    requires other in Members(rooms, room) && other != socket
    ensures Delivery(other, UserTyping(userId)) in Deliveries(rooms, socket, Typing(room, userId))
    ensures Delivery(socket, UserTyping(userId)) !in Deliveries(rooms, socket, Typing(room, userId))
  {
  }

  /** There is no `leaveRoom` handler: the event changes nothing. */
  lemma LeaveRoomIsIgnored(rooms: map<Room, set<SocketId>>, socket: SocketId, room: Room)
    ensures RoomsAfter(rooms, socket, LeaveRoom(room)) == rooms
    ensures Deliveries(rooms, socket, LeaveRoom(room)) == {}
  {
  }

  /** After a disconnect the socket receives nothing from any room. */
  lemma {:induction false} DisconnectedSocketHearsNothing(rooms: map<Room, set<SocketId>>, socket: SocketId,
                                                          other: SocketId, ev: ClientEvent)
    ensures forall d :: d in Deliveries(RoomsAfter(rooms, socket, Disconnect), other, ev) ==> d.to != socket
  {
    var after := RoomsAfter(rooms, socket, Disconnect);
    forall d | d in Deliveries(after, other, ev)
      ensures d.to != socket
    {
      assert d.to in Members(after, ev.room);
    }
  }
}

=== FILE: user_controller.dfy ===
/** The account handlers (backend/controllers/user.controller.js): the
    order of `register`'s checks and its single insert, and `loginUser`'s
    outcomes. Token signing and the cookie are not modelled; bcrypt's
    compare is the parameter `checkPassword`. */
module UserController {
  import opened Common
  import opened UserModel

  /** `Boolean(v)` for a body field: absent and empty are falsy. */
  predicate Truthy(v: Option<string>)
  {
    v.Some? && v.value != ""
  }

  const RegisterRoles: seq<string> := ["buyer", "seller", "admin"]

  /** The `$or` query of both handlers, with the email and username setters
      applied to the query values; an absent value matches no user. */
  predicate MatchesAccount(u: User, email: Option<string>, username: Option<string>)
  {
    (email.Some? && u.email == ToLower(email.value))
    || (username.Some? && u.username == Trim(username.value))
  }

  /** `findOne`: the first matching user. */
  function FindAccount(users: seq<User>, email: Option<string>, username: Option<string>): (r: Option<nat>)
    ensures r.Some? ==> r.value < |users| && MatchesAccount(users[r.value], email, username)
    ensures r.Some? ==> forall k :: 0 <= k < r.value ==> !MatchesAccount(users[k], email, username)
    ensures r.None? <==> forall k :: 0 <= k < |users| ==> !MatchesAccount(users[k], email, username)
  {
    FindFirst(users, (u: User) => MatchesAccount(u, email, username))
  }

  /** How `register` ends before the insert: 400 for a missing field, then
      400 for a role outside the list, then 409 for a taken email or
      username; None when the insert is attempted. */
  function RegisterCheck(users: seq<User>, username: Option<string>, name: Option<string>,
                         email: Option<string>, password: Option<string>, role: Option<string>): (r: Option<nat>)
    ensures r == Some(CodeBadRequest) <==>
      !(Truthy(username) && Truthy(name) && Truthy(email) && Truthy(password) && Truthy(role))
      || role.value !in RegisterRoles
    ensures r == Some(CodeConflict) <==>
      && Truthy(username) && Truthy(name) && Truthy(email) && Truthy(password) && Truthy(role)
      && role.value in RegisterRoles
      && exists k :: 0 <= k < |users| && MatchesAccount(users[k], email, username)
    ensures r.None? || r == Some(CodeBadRequest) || r == Some(CodeConflict)
  {
    if !(Truthy(username) && Truthy(name) && Truthy(email) && Truthy(password) && Truthy(role)) then
      Some(CodeBadRequest)
    else if role.value !in RegisterRoles then Some(CodeBadRequest)
    else if FindAccount(users, email, username).Some? then Some(CodeConflict)
    else None
  }

  /** `register`: the checks, then exactly one insert; a schema rejection
      lands in the catch-all 500. The reply carries the user without its
      password. */
  method Register(store: UserCollection, username: Option<string>, name: Option<string>,
                  email: Option<string>, password: Option<string>, role: Option<string>,
                  now: nat, isEmail: string -> bool, hash: string -> string)
    returns (reply: Reply<PublicUser>)
    requires store.Valid()
    modifies store
    ensures store.Valid()
    ensures RegisterCheck(old(store.users), username, name, email, password, role).Some? ==>
      reply == Fail(RegisterCheck(old(store.users), username, name, email, password, role).value)
      && store.users == old(store.users)
    ensures RegisterCheck(old(store.users), username, name, email, password, role).None? ==>
      match NewUser(old(store.nextId), username, name, email, password, role, now, isEmail)
      case None => reply == Fail(CodeServerError) && store.users == old(store.users)
      case Some(u) =>
        var stored := u.(password := hash(u.password));
        reply == Done(CodeCreated, ToPublic(stored)) && store.users == old(store.users) + [stored]
  {
    var check := RegisterCheck(store.users, username, name, email, password, role);
    if check.Some? {
      return Fail(check.value);
    }
    NoClashAfterCheck(store.users, username, name, email, password, role, store.nextId, now, isEmail);
    var created := store.Create(username, name, email, password, role, now, isEmail, hash);
    if created.None? {
      return Fail(CodeServerError);
    }
    reply := Done(CodeCreated, ToPublic(created.value));
  }

  /** Once the duplicate check passed, the unique indexes cannot refuse the
      new record: the check queries the values the setters will store. */
  lemma NoClashAfterCheck(users: seq<User>, username: Option<string>, name: Option<string>,
                          email: Option<string>, password: Option<string>, role: Option<string>,
                          id: Id, now: nat, isEmail: string -> bool)
    requires RegisterCheck(users, username, name, email, password, role).None?
    ensures NewUser(id, username, name, email, password, role, now, isEmail).Some? ==>
      !Clashes(users, NewUser(id, username, name, email, password, role, now, isEmail).value)
  {
    if NewUser(id, username, name, email, password, role, now, isEmail).Some? {
      var u := NewUser(id, username, name, email, password, role, now, isEmail).value;
      forall k | 0 <= k < |users|
        ensures users[k].username != u.username && users[k].email != u.email
      {
        assert !MatchesAccount(users[k], email, username);
      }
    }
  }

  /** `loginUser`: 400 without an identifier or a password; 401 when the
      first matching user is missing or the password check fails. */
  function LoginUser(users: seq<User>, email: Option<string>, username: Option<string>,
                     password: Option<string>, checkPassword: (string, string) -> bool): (r: Reply<PublicUser>)
    ensures r == Fail(CodeBadRequest) <==> !(Truthy(email) || Truthy(username)) || !Truthy(password)
    ensures r == Fail(CodeUnauthorized) <==>
      && (Truthy(email) || Truthy(username)) && Truthy(password)
      && (FindAccount(users, email, username).None?
          || !checkPassword(password.value, users[FindAccount(users, email, username).value].password))
    ensures r.Done? ==>
      && FindAccount(users, email, username).Some?
      && checkPassword(password.value, users[FindAccount(users, email, username).value].password)
      && r == Done(CodeOk, ToPublic(users[FindAccount(users, email, username).value]))
  {
    if !(Truthy(email) || Truthy(username)) || !Truthy(password) then Fail(CodeBadRequest)
    else match FindAccount(users, email, username)
      case None => Fail(CodeUnauthorized)
      case Some(k) =>
        if !checkPassword(password.value, users[k].password) then Fail(CodeUnauthorized)
        else Done(CodeOk, ToPublic(users[k]))
  }

  /** The record `register` stores after a passing check can log in, by
      its email or by its username, with the password it registered, given
      only bcrypt's promise that a password passes the compare against its
      own hash. The check's duplicate test is what makes the new record the
      first match. */
  lemma RegisteredUserCanLogIn(users: seq<User>, username: Option<string>, name: Option<string>,
                               email: Option<string>, password: Option<string>, role: Option<string>,
                               id: Id, now: nat, isEmail: string -> bool, hash: string -> string,
                               checkPassword: (string, string) -> bool)
    requires RegisterCheck(users, username, name, email, password, role).None?
    requires NewUser(id, username, name, email, password, role, now, isEmail).Some?
    requires forall p :: checkPassword(p, hash(p))
    ensures var u := NewUser(id, username, name, email, password, role, now, isEmail).value;
      var stored := u.(password := hash(u.password));
      && LoginUser(users + [stored], email, None, password, checkPassword) == Done(CodeOk, ToPublic(stored))
      && LoginUser(users + [stored], None, username, password, checkPassword) == Done(CodeOk, ToPublic(stored))
  {
    var u := NewUser(id, username, name, email, password, role, now, isEmail).value;
    var stored := u.(password := hash(u.password));
    var all := users + [stored];
    NoClashAfterCheck(users, username, name, email, password, role, id, now, isEmail);
    forall k | 0 <= k < |users|
      ensures !MatchesAccount(all[k], email, None) && !MatchesAccount(all[k], None, username)
    {
      assert all[k] == users[k];
    }
    assert MatchesAccount(all[|users|], email, None) && MatchesAccount(all[|users|], None, username);
    assert FindAccount(all, email, None) == Some(|users|);
    assert FindAccount(all, None, username) == Some(|users|);
    assert checkPassword(password.value, hash(password.value));
  }
}

=== FILE: user_model.dfy ===
/** The user schema (backend/models/user.model.js): the string setters
    (`trim` on username, `lowercase` on email), the field validators, the
    doubly-declared `role` path, the password pre-save hook, and the user
    collection whose unique indexes refuse a second username or email. */
module UserModel {
  import opened Common

  const UsernameMinLength: nat := 3
  const UsernameMaxLength: nat := 20
  const PasswordMinLength: nat := 6

  /** The characters `String.prototype.trim` strips: white space and line
      terminators as ECMAScript defines them. */
  predicate IsWhitespace(c: char)
  {
    var n := c as int;
    n == 9 || n == 10 || n == 11 || n == 12 || n == 13 || n == 32 || n == 0xA0 || n == 0x1680
    || (0x2000 <= n <= 0x200A) || n == 0x2028 || n == 0x2029 || n == 0x202F || n == 0x205F
    || n == 0x3000 || n == 0xFEFF
  }

  /** The string without its leading white space. */
  function TrimStart(s: string): (r: string)
    ensures |r| <= |s| && r == s[|s| - |r|..]
    ensures r == [] || !IsWhitespace(r[0])
    ensures forall k :: 0 <= k < |s| - |r| ==> IsWhitespace(s[k])
  {
    if s != [] && IsWhitespace(s[0]) then TrimStart(s[1..]) else s
  }

  /** The string without its trailing white space. */
  function TrimEnd(s: string): (r: string)
    ensures |r| <= |s| && r == s[..|r|]
    ensures r == [] || !IsWhitespace(r[|r| - 1])
    ensures forall k :: |r| <= k < |s| ==> IsWhitespace(s[k])
  {
    if s != [] && IsWhitespace(s[|s| - 1]) then TrimEnd(s[..|s| - 1]) else s
  }

  /** The `trim: true` setter. */
  function Trim(s: string): (r: string)
    ensures |r| <= |s|
    ensures r == [] || (!IsWhitespace(r[0]) && !IsWhitespace(r[|r| - 1]))
  {
    TrimEnd(TrimStart(s))
  }

  /** Trimming a trimmed value changes nothing, so the stored username is
      what a later query's setter produces from it. */
  lemma TrimIdempotent(s: string)
    ensures Trim(Trim(s)) == Trim(s)
  {
    var t := Trim(s);
    assert TrimStart(t) == t;
    assert TrimEnd(t) == t;
  }

  function LowerChar(c: char): char
  {
    if 'A' <= c <= 'Z' then (c as int + 32) as char else c
  }

  /** The `lowercase: true` setter, on ASCII letters. */
  function ToLower(s: string): (r: string)
    ensures |r| == |s|
    ensures forall k :: 0 <= k < |s| ==> r[k] == LowerChar(s[k])
    ensures forall k :: 0 <= k < |r| ==> !('A' <= r[k] <= 'Z')
  {
    if s == [] then [] else [LowerChar(s[0])] + ToLower(s[1..])
  }

  lemma ToLowerIdempotent(s: string)
    ensures ToLower(ToLower(s)) == ToLower(s)
  {
    var once := ToLower(s);
    assert forall k :: 0 <= k < |s| ==> ToLower(once)[k] == once[k];
  }

  /** The options of one `role` declaration in the schema literal. */
  datatype RoleRule = RoleRule(values: seq<string>, required: bool, default: Option<string>)

  /** The two `role` keys of the schema literal, in source order. */
  const RoleRules: seq<RoleRule> := [
    RoleRule(["buyer", "seller"], true, None),
    RoleRule(["buyer", "seller", "admin"], false, Some("buyer"))
  ]

  /** An object literal with a repeated key keeps the last one. */
  const RoleRuleInEffect: RoleRule := RoleRules[|RoleRules| - 1]

  function RoleFromName(name: string): (r: Option<Role>)
    ensures r.Some? ==> RoleName(r.value) == name
    ensures r.None? <==> name !in ["buyer", "seller", "admin"]
  {
    if name == "buyer" then Some(Buyer)
    else if name == "seller" then Some(Seller)
    else if name == "admin" then Some(Admin)
    else None
  }

  /** The stored role for the value given at creation: the default when
      none is given, the value itself when the rule in effect lists it,
      and None when validation rejects it. */
  function ResolveRole(role: Option<string>): (r: Option<Role>)
    ensures role.None? ==> r == Some(Buyer)
    ensures role.Some? ==> (r.Some? <==> role.value in RoleRuleInEffect.values)
    ensures role.Some? && r.Some? ==> RoleName(r.value) == role.value
  {
    match (if role.None? then RoleRuleInEffect.default else role)
    case None => None
    case Some(name) => if name in RoleRuleInEffect.values then RoleFromName(name) else None
  }

  /** The rule in effect is the second one: admin is accepted, the role is
      optional, and it defaults to buyer; the first rule would have
      refused an admin and a missing role. */
  lemma SecondRoleRuleWins()
    ensures RoleRuleInEffect == RoleRules[1]
    ensures "admin" !in RoleRules[0].values && RoleRules[0].required
    ensures ResolveRole(Some("admin")) == Some(Admin)
    ensures ResolveRole(None) == Some(Buyer)
  {
  }

  /** A user record; `password` holds whatever the hook left there. */
  datatype User = User(
    id: Id, username: string, name: string, email: string, password: string, role: Role, updatedAt: nat)

  /** A user as it goes back to the client, with the password dropped. */
  datatype PublicUser = PublicUser(
    id: Id, username: string, name: string, email: string, role: Role, updatedAt: nat)

  function ToPublic(u: User): (r: PublicUser)
    ensures r.id == u.id && r.username == u.username && r.name == u.name
    ensures r.email == u.email && r.role == u.role && r.updatedAt == u.updatedAt
  {
    PublicUser(u.id, u.username, u.name, u.email, u.role, u.updatedAt)
  }

  /** What goes back to the client does not depend on the password. */
  lemma PublicIgnoresPassword(u: User, password: string)
    ensures ToPublic(u.(password := password)) == ToPublic(u)
  {
  }

  /** `userModel.create(...)` before the hook: the setters run, then the
      validators; None when a validator refuses the record. `isEmail` is
      the email validator. */
  function NewUser(id: Id, username: Option<string>, name: Option<string>, email: Option<string>,
                   password: Option<string>, role: Option<string>, now: nat,
                   isEmail: string -> bool): (r: Option<User>)
    ensures r.Some? <==>
      && username.Some? && UsernameMinLength <= |Trim(username.value)| <= UsernameMaxLength
      && name.Some? && name.value != ""
      && email.Some? && ToLower(email.value) != "" && isEmail(ToLower(email.value))
      && password.Some? && |password.value| >= PasswordMinLength
      && ResolveRole(role).Some?
    ensures r.Some? ==>
      && r.value.id == id && r.value.username == Trim(username.value) && r.value.name == name.value
      && r.value.email == ToLower(email.value) && r.value.password == password.value
      && r.value.role == ResolveRole(role).value && r.value.updatedAt == now
  {
    if username.None? || name.None? || email.None? || password.None? then None
    else
      var u := Trim(username.value);
      var e := ToLower(email.value);
      if |u| < UsernameMinLength || |u| > UsernameMaxLength then None
      else if name.value == "" then None
      else if e == "" || !isEmail(e) then None
      else if |password.value| < PasswordMinLength then None
      else match ResolveRole(role)
        case None => None
        case Some(r) => Some(User(id, u, name.value, e, password.value, r, now))
  }

  /** A user as `save` sees it: its value and the paths modified since it
      was loaded or built. */
  class UserDocument {
    var value: User
    var modified: set<string>

    /** A document built by `create`: every path it was given is modified. */
    constructor Build(u: User)
      ensures value == u && "password" in modified
    {
      value := u;
      modified := {"username", "name", "email", "password", "role"};
    }

    /** `userSchema.pre('save', ...)`: hash the password only when it was
        modified. `hash` stands for the salted bcrypt hash. */
    method PreSave(hash: string -> string)
      modifies this`value
      ensures "password" in modified ==> value == old(value).(password := hash(old(value).password))
      ensures "password" !in modified ==> value == old(value)
    {
      if "password" !in modified {
        return;
      }
      value := value.(password := hash(value.password));
    }
  }

  /** A user the unique indexes would refuse next to `users`. */
  predicate Clashes(users: seq<User>, u: User)
  {
    exists k :: 0 <= k < |users| && (users[k].username == u.username || users[k].email == u.email)
  }

  /** `findById`: the first user with that id. */
  function FindUser(users: seq<User>, id: Id): (r: Option<nat>)
    ensures r.Some? ==> r.value < |users| && users[r.value].id == id
    ensures r.Some? ==> forall k :: 0 <= k < r.value ==> users[k].id != id
    ensures r.None? <==> forall k :: 0 <= k < |users| ==> users[k].id != id
  {
    FindFirst(users, (u: User) => u.id == id)
  }

  /** The `user` collection in insertion order. */
  class UserCollection {
    var users: seq<User>
    var nextId: Id

    /** Ids already issued and distinct; usernames and emails unique, as
        the indexes keep them. */
    ghost predicate Valid()
      reads this
    {
      && (forall k :: 0 <= k < |users| ==> users[k].id < nextId)
      && (forall i, j :: 0 <= i < j < |users| ==> users[i].id != users[j].id)
      && (forall i, j :: 0 <= i < j < |users| ==>
            users[i].username != users[j].username && users[i].email != users[j].email)
    }

    constructor ()
      ensures Valid() && users == [] && nextId == 0
    {
      users := [];
      nextId := 0;
    }

    /** `userModel.create(...)`: validate, run the pre-save hook, insert;
        a validation failure or a duplicate key inserts nothing. */
    method Create(username: Option<string>, name: Option<string>, email: Option<string>,
                  password: Option<string>, role: Option<string>, now: nat,
                  isEmail: string -> bool, hash: string -> string) returns (r: Option<User>)
      requires Valid()
      modifies this
      ensures Valid()
      ensures NewUser(old(nextId), username, name, email, password, role, now, isEmail).None? ==>
        r.None? && users == old(users)
      ensures NewUser(old(nextId), username, name, email, password, role, now, isEmail).Some? ==>
        var u := NewUser(old(nextId), username, name, email, password, role, now, isEmail).value;
        if Clashes(old(users), u) then r.None? && users == old(users)
        else r == Some(u.(password := hash(u.password))) && users == old(users) + [r.value]
    {
      var built := NewUser(nextId, username, name, email, password, role, now, isEmail);
      if built.None? {
        return None;
      }
      var doc := new UserDocument.Build(built.value);
      doc.PreSave(hash);
      if Clashes(users, built.value) {
        return None;
      }
      users := users + [doc.value];
      nextId := nextId + 1;
      r := Some(doc.value);
    }
  }
}
